=== FILE: README.md ===
# Access control and ownership in the AGS Properties backend

AGS Properties is a Flask-RESTful backend for a real-estate listing site.
Its users have one of three roles: `admin`, `agent` or `user`. Signup and
login hand out a JWT. The token's identity is the user id, and its `role`
claim is the role stored for that user.

Three decorators in `utils.py` (`admin_required`, `agent_required`,
`user_required`) guard the resources. Each one verifies the token and
compares the role claim with one fixed string. It then calls the handler,
or answers 403; when anything raises, it answers 401.

Behind the gates:
- Agent handlers resolve the caller's agent profile. They reach a property
  only through the pair (property id, owner's profile id).
- User handlers key favorites by the caller's user profile.
- Admin handlers count, list and approve users.

This project models that core in Dafny:

| file | module | models |
|---|---|---|
| `records.dfy` | `Records` | the tables as rows of values; filter, first match, lookup by id, newest-first, SUM; SQLite's id assignment |
| `text.dfy` | `Text` | `int()` on form text, `str(bool)`, `lower()`, `capitalize()`, form lookups |
| `gate.dfy` | `Gate` | the three decorators as one decision on (verification outcome, role claim); a handler's exception |
| `store.dfy` | `Store` | the session as a class with one field per table |
| `url_dedup.dfy` | `UrlDedup` | the URL de-duplication loop of the property detail |
| `agent_queries.dfy` | `AgentQueries` | ownership resolution, the agent's listings, detail, dashboard, time-ago text |
| `agent_edits.dfy` | `AgentEdits` | create, update and delete of a property, on the session and as functions |
| `user_resources.dfy` | `UserResources` | user dashboard, saved properties, the favorite toggle |
| `admin_resources.dfy` | `AdminResources` | admin dashboard, pending agents, approval, recent users |
| `auth_resources.dfy` | `AuthResources` | signup and login, tokens, the user view without the password |
| `routes.dfy` | `Routes` | which gate sits on which resource, and each endpoint as gate plus handler |

Two functions stand in for bcrypt: `hash` for `generate_password_hash` and
`check` for `check_password`. The clock (`now`, the start of the month) and
the upload file names are parameters. A JWT is the pair
(subject, role). Verifying one yields either `Rejected` (anything that makes
`verify_jwt_in_request` or `get_jwt` raise) or `Verified(claims)`.

Every write has two halves:
- a pure `...Spec` function over the whole `Tables` value, which returns the
  new tables and how the handler ended;
- a `method` on `Store.Database` that performs the writes, with a
  postcondition that ties its new state to that function.

A handler that raises is `Crashed`: nothing it did is committed, and the
gate turns it into 401. The endpoints in `Routes` prove two things: a
denied request leaves the store unchanged, and only a success answer
(200/201) can come with a changed store.

## Model

| member | source | states |
|---|---|---|
| Gate.Decide | utils.py:13-24 | Admits exactly when the token verified, has claims, and its role claim equals the required role's string; a rejected token is 401 "Invalid or missing token"; no claims is 403 "Unauthorized request"; any other role claim is 403 naming the required role |
| Gate.Settle | utils.py:19-24 | The handler's own answer is returned unchanged; a handler that raises is reported as 401 "Invalid or missing token" |
| Gate.Guarded | utils.py:9-28 | A decorated handler: a denied request gets the gate's refusal, an admitted one the settled handler answer; a 401 comes only from a rejected token, a crash, or the handler itself |
| Gate.RefusedRequestIgnoresHandler | utils.py:17-22 | When the claims do not carry the role, the answer is the same whatever the handler would do, and is 401 or 403 |
| Gate.GatesAreExclusive | utils.py:19-20 | No verification is admitted by two different gates: admin_required never admits an agent or user claim |
| Gate.UnknownRoleFailsClosed | utils.py:40-43 | A missing role claim, or any string other than the three role names, is refused by every gate with 403 |
| Gate.HandlerCrashReadsAsInvalidToken | utils.py:34-45 | An admitted request whose handler raises is answered 401 "Invalid or missing token" |
| Gate.Unguarded | resources/auth.py:18-51 | An undecorated handler that raises reaches Flask and is a 500; otherwise its answer is returned |
| Records.NextId | app.py:7 | The id SQLite gives the next row: larger than every id present, and at least 1 |
| Records.NextIdOfIncreasing | app.py:7 | On a table in id order the next id is the last row's id plus one, so the id of a deleted last row is handed out again |
| Records.AppendKeepsIncreasing | resources/agent.py:305-306 | Inserting a row with the next id keeps the table in id order |
| Records.FilterKeepsIncreasing | resources/agent.py:487-495 | Deleting any subset of rows keeps the rest in id order |
| Records.Newest | resources/admin.py:74-79 | `ORDER BY created_at DESC LIMIT n`: at most n rows (all when n is negative), the i-th being the i-th from the end |
| Records.TotalAmountOfNulls | resources/admin.py:27 | SUM over no rows, or over NULL amounts only, is read as 0 |
| Records.FilterStrongerIsShorter | resources/admin.py:25-39 | Filtering by a stronger condition keeps no more rows than filtering by a weaker one |
| Records.Get | resources/agent.py:129-131 | `Model.query.get(id)`: a row of the table with that id, or None exactly when no row has it |
| Text.ParseInt | resources/agent.py:292-296 | `int()` on form text: succeeds exactly on an optional `+` or `-` followed by one or more digits, with the signed decimal value |
| Text.ParseIntRoundTrip | resources/agent.py:292-296 | `int(str(i)) == i` for every integer |
| Text.Capitalize | resources/admin.py:85 | `str.capitalize` on ASCII letters: same length, first character upper-cased, the rest lower-cased |
| Text.Lower | resources/agent.py:319 | `str.lower`: same length, each character lower-cased |
| Text.FormGet | resources/agent.py:260-266 | `request.form.get(key)`: a value exactly when the key was sent |
| Text.FormGetOr | resources/agent.py:263-265 | `request.form.get(key, default)`: the sent value when the key is present, the default when it is not |
| UrlDedup.Dedup | resources/agent.py:178-195 | The loop returns exactly the first row of each URL in input order, has no duplicate URL, and covers every input URL |
| UrlDedup.UniqueIsFirstOccurrences | resources/agent.py:179-184 | The step-by-step result of the loop equals the reference "first occurrences" definition |
| UrlDedup.UniqueCoversEveryUrl | resources/agent.py:181-184 | No input URL is lost by the de-duplication |
| UrlDedup.UniqueHasNoDuplicates | resources/agent.py:181-184 | The de-duplicated list has pairwise distinct URLs |
| AgentQueries.AgentProfileOf | resources/agent.py:164 | The profile of the identity at the lowest table position, as `.first()` returns it; no earlier row belongs to the identity; None exactly when the identity has no profile |
| AgentQueries.OwnedBy | resources/agent.py:76-78 | Exactly the properties whose agent_id is the given profile |
| AgentQueries.OwnedIndex | resources/agent.py:170-173 | `filter_by(id=..., agent_id=...).first()`: a row with both the id and the owner, or None exactly when no row with that id has that owner |
| AgentQueries.ImagesOf | resources/agent.py:176 | Exactly the images of the property |
| AgentQueries.VideosOf | resources/agent.py:187 | Exactly the videos whose `propert_id` is the property |
| AgentQueries.ViewsOf | resources/agent.py:89 | Exactly the views of the property |
| AgentQueries.PrimaryImageUrl | resources/agent.py:83-87 | The URL of the property's primary image at the lowest table position, as `.first()` returns it; no earlier row is a primary image of the property; None exactly when it has none |
| AgentQueries.InquiriesTo | resources/agent.py:122-124 | Exactly the inquiries whose agent_id is the given profile |
| AgentQueries.Locate | resources/agent.py:164-173 | No profile: 404 "Agent profile not found"; otherwise a property is found iff one has both the id and the caller's profile id as agent_id, else 404 "Property not found" |
| AgentQueries.ForeignPropertyLooksMissing | resources/agent.py:170-173 | Another agent's property gets exactly the answer a nonexistent id gets |
| AgentQueries.LimitArg | resources/agent.py:73 | `args.get('limit', 5, type=int)`: 5 when absent, 5 when present but not an integer, the parsed integer otherwise |
| AgentQueries.RecentProperties | resources/agent.py:62-105 | 200 always; no profile gives []; every summary is of a property owned by the caller; exactly min(limit, owned) entries, and all owned properties when the limit is negative |
| AgentQueries.RecentPropertiesNewestFirst | resources/agent.py:76-103 | Exactly min(limit, owned) entries (all for a negative limit), the i-th the summary (view count, primary image URL) of the i-th newest property the caller owns |
| AgentQueries.TimeAgo | resources/agent.py:133-142 | "" when created_at is NULL; "N day(s) ago" for whole days; else "N hour(s) ago"; else "Just now" |
| AgentQueries.FutureCreationReadsHoursAgo | resources/agent.py:136-140 | A creation time one second in the future reads "23 hours ago", since the day count of a negative difference is -1 and its seconds wrap |
| AgentQueries.RecentInquiries | resources/agent.py:108-156 | 200 always; no profile gives []; only inquiries addressed to the caller's profile; exactly min(limit, addressed) entries, all of them when the limit is negative |
| AgentQueries.RecentInquiriesNewestFirst | resources/agent.py:122-154 | Exactly min(limit, addressed) entries (all for a negative limit), the i-th the summary (sender name or "Unknown", title or "Unknown Property", time-ago text) of the i-th newest inquiry addressed to the caller |
| AgentQueries.PrimaryFirstIsPermutation | resources/agent.py:176 | Ordering images primary-first then by id reorders the property's images without adding or losing any |
| AgentQueries.PrimaryFirstIsDisplayOrder | resources/agent.py:176 | That order puts every primary image before every other, and orders each group by id |
| AgentQueries.DisplayedImagesFacts | resources/agent.py:176-184 | The detail's images are in display order, have no duplicate URL, and cover every URL of the property's images |
| AgentQueries.DisplayedVideosFacts | resources/agent.py:187-195 | The detail's videos are in id order, have no duplicate URL, and cover every URL of the property's videos |
| AgentQueries.Detail | resources/agent.py:159-240 | Refusals are exactly Locate's; otherwise 200 with the property, de-duplicated images and videos, the view count and the location of the first link |
| AgentQueries.AgentStatsRun | resources/agent.py:15-59 | Raises exactly when there is no profile (the inquiry count dereferences it); otherwise counts owned listings, inquiries, views of owned properties, and this month's complete payments |
| AgentQueries.StatsWithoutProfileReadAsInvalidToken | resources/agent.py:30 | An agent without a profile is told its token is invalid (401) |
| AgentEdits.MissingFields | resources/agent.py:279-284 | The names of title, price, listing_type, property_type_id that are absent or empty, in that order; empty iff all are present |
| AgentEdits.NewProperty | resources/agent.py:260-303 | The row create builds: owner is the caller's profile; title, listing type and parsed price and type as sent; description and area_unit as sent or NULL; currency defaults to "Ksh", status to "onsale"; bedrooms, bathrooms and area_size parsed or NULL; listing and creation dates now; None when price or property_type_id is not an integer |
| AgentEdits.AddCreateImages | resources/agent.py:309-327 | One image per non-empty upload, all of the new property, ids fresh and increasing; no image but the first stored one can be primary, and only when part 0 was stored and is_primary_0 is "true" in any case |
| AgentEdits.StoredIndices | resources/agent.py:310-311 | The positions of the non-empty parts, increasing, each below n, every non-empty part listed |
| AgentEdits.CreateImagesFollowParts | resources/agent.py:310-327 | The j-th stored image comes from the j-th non-empty part: URL `/uploads/property_<id>_<i>_<filename>` for that part's position i, primary exactly when i is 0 and is_primary_0 reads "true" |
| AgentEdits.CreatePrimaryRule | resources/agent.py:319 | The first stored image is primary if and only if part 0 is non-empty and is_primary_0 lowers to "true" |
| AgentEdits.StoreCreateImages | resources/agent.py:309-327 | The session loop adds exactly the images AddCreateImages describes and changes no other table |
| AgentEdits.AddVideos | resources/agent.py:330-344 | One video per non-empty upload, all of the property, appended after the existing rows |
| AgentEdits.StoreVideos | resources/agent.py:330-344 | The session loop adds exactly the videos AddVideos describes and changes no other table |
| AgentEdits.AddLocation | resources/agent.py:347-361 | A location and a link are added iff city or neighborhood is non-empty |
| AgentEdits.StoreLocation | resources/agent.py:347-361 | The session writes exactly the location and link AddLocation describes |
| AgentEdits.CreateSpec | resources/agent.py:243-368 | No profile: 404, nothing changes; a missing field: 400 with missing_fields, nothing changes; a non-integer price or type raises, nothing changes; every other request gets 201 with the next property id; then the property is appended with the caller as owner and findable by its owner, the images are AddCreateImages's (the first primary iff part 0 is non-empty and requested primary), the videos AddVideos's, the location and link AddLocation's, other tables unchanged |
| AgentEdits.CreateKeepsWellFormed | resources/agent.py:305-363 | Create keeps every table in id order and the user contacts unique |
| AgentEdits.Create | resources/agent.py:243-368 | The session method leaves the tables and the answer CreateSpec describes |
| AgentEdits.Patched | resources/agent.py:388-409 | Each of the eleven columns is the sent value (parsed for integer columns) when supplied non-empty and the old value otherwise; agent_id and dates never change; None when a supplied integer field is not an integer |
| AgentEdits.EmptyPatchChangesNothing | resources/agent.py:388-409 | A form supplying no field leaves the property as it was |
| AgentEdits.PatchIsIdempotent | resources/agent.py:388-409 | Applying the same form twice equals applying it once |
| AgentEdits.UpdatePrimaryRule | resources/agent.py:418-420 | Of the images an update adds, only the first can be primary, and it is iff the property had no images |
| AgentEdits.AddUpdateImages | resources/agent.py:411-427 | One image per non-empty upload, appended after the existing rows, all of the property |
| AgentEdits.UpdateImagesKeepOrder | resources/agent.py:422-427 | The images update adds keep the image table in id order |
| AgentEdits.StoreUpdateImages | resources/agent.py:411-427 | The session loop adds exactly the images AddUpdateImages describes and changes no other table |
| AgentEdits.UpdateImagesAreFresh | resources/agent.py:422-427 | Images added by update get ids above every existing image id |
| AgentEdits.PruneImages | resources/agent.py:430-438 | With existing_images given, exactly this property's images whose id is not listed are removed; others untouched |
| AgentEdits.PruneVideos | resources/agent.py:453-461 | The same rule for videos |
| AgentEdits.UpdateSpec | resources/agent.py:371-468 | Refusals are Locate's with nothing changed; an unreadable integer or id list raises with nothing changed; every other request gets 200 with the property id; then the patched row is in place, images are the prune of AddUpdateImages and videos the prune of AddVideos, other properties' media kept, everything kept when no list is sent, listed ids kept and only listed ids left for the property when a list is sent, other tables unchanged |
| AgentEdits.RewrittenKeeps | resources/agent.py:411-461 | The write phase keeps every image and video of other properties and all of them when no id list is sent; with a list, every listed existing row survives and only listed ids remain among this property's images and videos |
| AgentEdits.UpdateDropsUnlistedUploads | resources/agent.py:411-438 | Images uploaded in the same update are pruned unless their ids are in existing_images, as they are flushed before the prune |
| AgentEdits.UpdateKeepsWellFormed | resources/agent.py:411-461 | Update keeps every table in id order |
| AgentEdits.Update | resources/agent.py:371-468 | The session method leaves the tables and the answer UpdateSpec describes |
| AgentEdits.Rewrite | resources/agent.py:389-461 | The write phase of an update (patched row, stored uploads, the two bulk deletes) leaves exactly the tables `Rewritten` describes |
| AgentEdits.DeleteSpec | resources/agent.py:471-498 | Refusals are Locate's with nothing changed; else 200, the property row gone, and exactly its images, videos, location links, views and inquiries removed; other tables unchanged |
| AgentEdits.ImagesNotOf | resources/agent.py:488 | The bulk delete keeps exactly the images of other properties |
| AgentEdits.VideosNotOf | resources/agent.py:489 | The bulk delete keeps exactly the videos of other properties |
| AgentEdits.LinksNotOf | resources/agent.py:490 | The bulk delete keeps exactly the location links of other properties |
| AgentEdits.ViewsNotOf | resources/agent.py:491 | The bulk delete keeps exactly the views of other properties |
| AgentEdits.InquiriesNotOf | resources/agent.py:492 | The bulk delete keeps exactly the inquiries about other properties |
| AgentEdits.Delete | resources/agent.py:471-498 | The session method leaves the tables and the answer DeleteSpec describes |
| AgentEdits.DeleteDependants | resources/agent.py:487-495 | The five bulk deletes remove exactly the rows of the property from their tables |
| AgentEdits.DeleteLeavesNoTrace | resources/agent.py:487-498 | After a delete the tables stay in id order, no property has the id, and the owner gets 404 "Property not found" |
| AgentEdits.FavoritesFollowAReusedId | resources/agent.py:487-495 | Favorites are not deleted; when the next created property reuses the id, each old favorite resolves to the new property |
| UserResources.UserProfileOf | resources/user.py:103 | The profile of the identity at the lowest table position, as `.first()` returns it; no earlier row belongs to the identity; None exactly when the identity has no profile |
| UserResources.FavoritesOf | resources/user.py:108 | Exactly the favorites whose user_id is the given user profile |
| UserResources.InquiriesFrom | resources/user.py:111 | Exactly the inquiries whose user_id is the raw identity |
| UserResources.VisitsBy | resources/user.py:114 | Exactly the views whose user_id is the raw identity |
| UserResources.UserStats | resources/user.py:96-120 | 200 always; saved is the number of favorites of the caller's user profile, 0 without one; inquiries and visits are the rows whose user_id is the raw identity |
| UserResources.ActivityCountsIgnoreProfile | resources/user.py:103-114 | The inquiry and visit counts are keyed on the raw identity: adding or removing user profiles does not change them |
| UserResources.Saved | resources/user.py:122-142 | 200 always; [] without a profile; otherwise each entry is a stored property a favorite of the caller points at, and every such favorite whose property `query.get` finds contributes it |
| UserResources.SavedList | resources/user.py:136-140 | No more entries than favorites; each entry is a stored property some favorite points at |
| UserResources.Resolving | resources/user.py:137-139 | Exactly the favorites whose property `query.get` finds |
| UserResources.SavedListFollowsFavorites | resources/user.py:136-140 | One entry per resolving favorite, in favorite order: the i-th is what `query.get` finds for the i-th resolving favorite |
| UserResources.SavedListHoldsEveryResolvingFavorite | resources/user.py:136-140 | Every favorite whose property exists contributes that property |
| UserResources.SavedListOfResolvedFavorites | resources/user.py:136-140 | When every favorite resolves, there is one entry per favorite and the i-th is the property of the i-th favorite |
| UserResources.SavedProperties | resources/user.py:134-140 | The append loop produces exactly Saved |
| UserResources.SavedMatchesCounterWhenNoneDangle | resources/user.py:134-140 | When every favorite of the caller's profile points at an existing property, the saved list is as long as the saved counter |
| UserResources.ToggleSpec | resources/user.py:145-188 | No profile: 404; a body that is not an object raises; missing or zero property_id: 400; unknown property: 404; nothing changes in these cases; else 200 and the favorite of (profile, property) is removed if present (false) or added (true) |
| UserResources.FavoriteIndex | resources/user.py:170-173 | The favorite row of the (profile, property) pair, or None exactly when the pair is not stored |
| UserResources.ToggleFavorite | resources/user.py:145-188 | The session method leaves the tables and the answer ToggleSpec describes |
| UserResources.ToggleFlipsOnePair | resources/user.py:170-188 | A successful toggle changes the set of (profile, property) pairs by exactly that one pair |
| UserResources.ToggleTwiceRestores | resources/user.py:170-188 | Toggling the same property twice restores the pair set |
| UserResources.ToggleMovesSavedCountByOne | resources/user.py:175-188 | A toggle moves the caller's saved count by exactly one, down when it answers false and up when true |
| UserResources.FavoritesOfWithout | resources/user.py:178-180 | Deleting one of the caller's favorites lowers their favorite count by exactly one |
| UserResources.FavoritesOfWith | resources/user.py:183-188 | Adding a favorite of the caller raises their favorite count by exactly one |
| AdminResources.AdminStatsOf | resources/admin.py:21-34 | total_users and total_properties are the table sizes; active_agents counts every role "agent" user whatever its verification; total_revenue is the SUM of the non-NULL amounts, 0 with no payments or only NULLs |
| AdminResources.AgentUsers | resources/admin.py:25 | Exactly the users whose role is "agent" |
| AdminResources.TotalAmountOfNullsIsZero | resources/admin.py:27 | The revenue is 0 when every payment amount is NULL |
| AdminResources.PendingAgents | resources/admin.py:39 | Exactly the users with role "agent" that are not verified, in table order |
| AdminResources.PendingAreCountedAsActive | resources/admin.py:25-39 | The pending list is never longer than active_agents |
| AdminResources.PendingList | resources/admin.py:36-50 | 200 with one entry per pending agent, the i-th the view (id, "first last", email, phone, date) of the i-th pending agent in id order |
| AdminResources.UserIndex | resources/admin.py:56 | `User.query.get(user_id)`: the position of the user with that id, or None exactly when there is none |
| AdminResources.ApproveSpec | resources/admin.py:52-67 | Unknown user: 404 "Agent does not found"; no is_verified: 400; a body that is not an object, or an unstorable value, raises; nothing changes in these; else exactly that user's flag is set and the reply names the value |
| AdminResources.Approve | resources/admin.py:52-67 | The session method leaves the tables and the answer ApproveSpec describes |
| AdminResources.ApprovalIgnoresRole | resources/admin.py:56-66 | Any existing user's flag can be set, whatever its role |
| AdminResources.ApprovalMovesPending | resources/admin.py:62-65 | Setting an agent's flag to true removes it from the pending list; false puts it there |
| AdminResources.RecentUsersList | resources/admin.py:71-90 | Exactly min(10, users) entries; the i-th is the view of the i-th newest user (email, name, capitalised role, date), with status "active" iff verified |
| AuthResources.MissingArgument | resources/auth.py:10-19 | `parse_args()`: the help text of the first absent required argument in declaration order; none iff all present |
| AuthResources.UsersWithEmail | resources/auth.py:27 | Exactly the users with that email |
| AuthResources.UsersWithPhone | resources/auth.py:32 | Exactly the users with that phone |
| AuthResources.SignupSpec | resources/auth.py:9-51 | Missing argument: 400; email taken: 400 "Email already taken"; else phone taken: 400 "Phone number already taken"; commit failure: 400; nothing changes then; else exactly one user appended with the next id, the hashed password, the role as supplied, unverified, and 201 with a token (new id, stored role) |
| AuthResources.Signup | resources/auth.py:18-51 | The session method leaves the tables and the answer SignupSpec describes |
| AuthResources.SignupKeepsWellFormed | resources/auth.py:27-40 | On well-formed tables `one_or_none()` never raises and signup keeps emails and phones unique |
| AuthResources.OneUserPerEmail | resources/auth.py:27 | On id-ordered tables with unique emails at most one user has a given email, so `one_or_none()` cannot raise |
| AuthResources.OneUserPerPhone | resources/auth.py:32 | Likewise at most one user has a given phone |
| AuthResources.LoginSpec | resources/auth.py:53-79 | Missing argument: 400; unknown email: 403 "Invalid email/password"; wrong password: 403 "Invalid email/passwprd"; else 200 with the first user of that email and its (id, role) token |
| AuthResources.LoginTokenOpensOwnGate | resources/auth.py:71 | A login token is admitted by exactly the gate of the stored role, as the stored user |
| AuthResources.SignupThenLogin | resources/auth.py:21-74 | Logging in with the signup's email and password returns the signup's user and token |
| AuthResources.SignupCanClaimAdmin | resources/auth.py:16-22 | A signup asking for role "admin" gets a token admin_required admits |
| AuthResources.ViewOmitsPassword | resources/auth.py:48-74 | The returned user does not depend on the stored password hash |
| Routes.RequiredRole | resources/admin.py:13-93 | Every resource of admin.py is admin-gated except PropertyResource; every agent resource is agent-gated; every user.py resource is user-gated except the undecorated UserPropertiesResource and UserPropertyDetailResource; exactly those two, PropertyResource, Signup and Login are ungated |
| Routes.Respond | utils.py:13-24 | A gated endpoint: 401 for a rejected token, the gate's refusal when denied, the settled handler answer (as the token's subject) when admitted |
| Routes.UsersListingAt | resources/admin.py:12-19 | 200 exactly for tokens carrying the admin role, with every user row |
| Routes.AdminDashboardAt | resources/admin.py:21-34 | 200 exactly for admin tokens, with the admin statistics |
| Routes.PendingAgentsAt | resources/admin.py:36-50 | 200 exactly for admin tokens, with the pending-agent list |
| Routes.RecentUsersAt | resources/admin.py:71-90 | 200 exactly for admin tokens, with the recent-users list |
| Routes.AgentInquiriesAt | resources/agent.py:108-156 | 200 exactly for agent tokens, with the caller's inquiries |
| Routes.UserDashboardAt | resources/user.py:96-120 | 200 exactly for user tokens, with the caller's statistics |
| Routes.SavedPropertiesAt | resources/user.py:122-142 | Non-user tokens get the gate's refusal; user tokens get the caller's saved list |
| Routes.AgentPropertiesAt | resources/agent.py:62-105 | 200 exactly for tokens carrying the agent role, with the caller's listing |
| Routes.AgentDashboardAt | resources/agent.py:15-59 | An agent token without a profile gets 401; 200 exactly for agents with a profile |
| Routes.AgentPropertyDetailAt | resources/agent.py:159-240 | Non-agent tokens get the gate's refusal; agents get 200 iff they own the property, carrying the property, its display-ordered deduplicated images, deduplicated videos, view count and location; otherwise Locate's 404 |
| Routes.AgentPropertyCreateAt | resources/agent.py:243-368 | Denied requests change nothing; admitted ones do what CreateSpec says; the store changes only with a 201 |
| Routes.AgentPropertyUpdateAt | resources/agent.py:371-468 | Denied requests change nothing; the store changes only with a 200 |
| Routes.AgentPropertyDeleteAt | resources/agent.py:471-498 | Denied requests change nothing; the store changes only with a 200 |
| Routes.ToggleFavoriteAt | resources/user.py:145-188 | Denied requests change nothing; the store changes only with a 200 |
| Routes.AgentApprovalAt | resources/admin.py:52-67 | Denied requests change nothing; the store changes only with a 200 |
| Routes.SignupAt | resources/auth.py:9-51 | A raised exception is a 500; the store changes only with a 201 |
| Routes.ForeignPropertyIsShielded | resources/agent.py:382-485 | Update and delete of another agent's property answer the same 404 as a nonexistent id and change nothing |
| Routes.RejectedTokenIsRefusedEverywhere | utils.py:23-24 | Every decorated endpoint answers 401 to a token that fails verification, whatever its handler |
| Routes.SignupOpensTheGateOfItsRole | resources/auth.py:16-45 | A signup naming a role receives a token that every endpoint gated on that role admits |

## Left out

- JWT signing, expiry and decoding are not modelled: a verification is `Rejected` or `Verified(claims)`, and a token is its (subject, role) pair.
- bcrypt is not modelled: hashing and checking are the function parameters `hash` and `check`.
- Nothing is saved to disk, and the debug `print`s are left out.
- The clock is a parameter: `now`, and the start of the month for the agent dashboard.
- Time-ago text is computed from whole seconds.
- Dates are formatted with `isoformat`/`strftime`; response shaping and that formatting are left out, and dates are integers.
- `ORDER BY created_at DESC` is modelled as reverse insertion order. This equals creation order when the clock does not go backwards; ties and a non-monotone clock are not modelled.
- The schema in models.py does not define `AgentProfile`, `UserProfile` or `Inquiry`, and names users' columns differently. The columns used here are those the resources read and write.
- Roles are free text, as SQLite stores any string in the enumerated column. Gating compares the exact string.
- `RecentActivitiesResource` (resources/user.py:192-240) is not part of this model, since it cannot run as written. Only its `user_required` gate is modelled (Routes.RequiredRole).
- The public browse endpoints are not part of this model: `UserPropertiesResource`, `UserPropertyDetailResource` and `PropertyResource`. Only their missing gate is modelled (Routes.RequiredRole).
- `Routes.UsersListingAt` returns the user rows as stored. The serialisation rules of `to_dict` are not modelled.
- AgentEdits.UpdateSpec: existing_images / existing_videos arrive as an already-decoded list of ids (`KeptIds`). JSON decoding is not modelled; an undecodable value is one `Unreadable` case that raises.
- AgentEdits.UpdateSpec: the integer checks and id-list checks are decided before any write. In the source the writes before a failing `int()` are only in the session and are never committed, so the visible outcome is the same.
- Capitalize: only ASCII letters are case-mapped. Python's `str.capitalize` maps every Unicode letter, so a role such as "émile" is shown differently in the recent-users list.
- SavedList: its own contract gives one direction of membership and a length bound; which properties appear and in which order is stated by SavedListFollowsFavorites and SavedListHoldsEveryResolvingFavorite.
- SignupSpec: `committed` stands for whether the insert commits. If `to_dict` or `create_access_token` raised after the commit (resources/auth.py:39-45), the source would answer 400 with the user stored; the model answers 400 with nothing stored.
- Text.ParseInt: it accepts only an optional sign followed by ASCII digits. Surrounding whitespace and digit-group underscores, which Python's `int()` also accepts, are not modelled.
- UserResources.ToggleSpec: `property_id` is modelled as an integer or absent (`ToggleBody.Object`). The source reads any JSON value and tests it with `not`. A JSON string such as "0" is truthy, so the source looks it up and answers 404 where the model's `Some(0)` answers 400. JSON `true` would look up property 1. Floats, lists and nested objects are not modelled.
- AdminResources.ApproveSpec: every body that is not a JSON object is modelled as raising. A JSON list without `"is_verified"`, or a JSON string not containing it, would get 400 in the source.
- AdminResources.ApproveSpec: an `is_verified` value is a boolean (`Flag`) or a value the Boolean column refuses at commit (`Unstorable`).
- The property id in a URL is a natural number, since Flask routes it through an `int` converter.
- Requests are sequential steps. The check-then-write sequences run without a transaction in the source, and their interleavings are not modelled.

=== FILE: admin_resources.dfy ===
/**
 * The admin-gated resources of resources/admin.py: the dashboard counters,
 * the pending-agent list, the approval switch and the recent-users list.
 */
module AdminResources {
  import opened Records
  import opened Text
  import opened Gate
  import opened Store
  import opened AgentEdits

  // ---------------------------------------------------------------------
  // Stats

  /** Every user whose role is "agent", verified or not. */
  function AgentUsers(users: seq<Row<UserData>>): (r: seq<Row<UserData>>)
    ensures forall u :: u in r <==> u in users && u.data.role == "agent"
  {
    Filter(users, (u: Row<UserData>) => u.data.role == "agent")
  }

  datatype AdminStats = AdminStats(totalUsers: nat, activeAgents: nat, totalProperties: nat, totalRevenue: int)

  /** AdminStatsResource.get; SUM over no rows, or over NULLs only, is NULL and reads as 0. */
  function AdminStatsOf(t: Tables): (r: Answer<AdminStats>)
    ensures r.Reply? && r.status == 200
    ensures r.value.totalUsers == |t.users| && r.value.totalProperties == |t.properties|
    ensures r.value.activeAgents == |AgentUsers(t.users)| <= r.value.totalUsers
    ensures r.value.totalRevenue == TotalAmount(t.payments)
    ensures (forall p :: p in t.payments ==> p.data.amount.None?) ==> r.value.totalRevenue == 0
  {
    TotalAmountOfNullsIsZero(t.payments);
    Reply(200, AdminStats(|t.users|, |AgentUsers(t.users)|, |t.properties|, TotalAmount(t.payments)))
  }

  lemma TotalAmountOfNullsIsZero(payments: seq<Row<PaymentData>>)
    ensures (forall p :: p in payments ==> p.data.amount.None?) ==> TotalAmount(payments) == 0
  {
    if forall p :: p in payments ==> p.data.amount.None? {
      TotalAmountOfNulls(payments);
    }
  }

  // ---------------------------------------------------------------------
  // Pending agents

  /** `User.query.filter_by(role='agent', is_verified=False)`. */
  function PendingAgents(users: seq<Row<UserData>>): (r: seq<Row<UserData>>)
    ensures forall u :: u in r <==> u in users && u.data.role == "agent" && !u.data.isVerified
    ensures Increasing(users) ==> Increasing(r)
  {
    FilterKeepsIncreasing(users, (u: Row<UserData>) => u.data.role == "agent" && !u.data.isVerified);
    Filter(users, (u: Row<UserData>) => u.data.role == "agent" && !u.data.isVerified)
  }

  /** Pending agents are some of the agents the stats count. */
  lemma PendingAreCountedAsActive(t: Tables)
    ensures |PendingAgents(t.users)| <= AdminStatsOf(t).value.activeAgents
  {
    FilterStrongerIsShorter(t.users,
      (u: Row<UserData>) => u.data.role == "agent" && !u.data.isVerified,
      (u: Row<UserData>) => u.data.role == "agent");
  }

  datatype PendingView = PendingView(id: nat, name: string, email: string, phone: string, date: int)

  function PendingViewOf(u: Row<UserData>): PendingView
  {
    PendingView(u.id, u.data.firstName + " " + u.data.lastName, u.data.email, u.data.phone, u.data.createdAt)
  }

  /** PendingAgentAproval.get. */
  function PendingList(t: Tables): (r: Answer<seq<PendingView>>)
    ensures r.Reply? && r.status == 200
    ensures |r.value| == |PendingAgents(t.users)|
    ensures forall i :: 0 <= i < |r.value| ==> r.value[i] == PendingViewOf(PendingAgents(t.users)[i])
    ensures forall v :: v in r.value ==> exists u :: u in t.users && u.id == v.id && u.data.role == "agent" && !u.data.isVerified
  {
    var pending := PendingAgents(t.users);
    assert forall i :: 0 <= i < |pending| ==> pending[i] in pending;
    Reply(200, seq(|pending|, i requires 0 <= i < |pending| => PendingViewOf(pending[i])))
  }

  // ---------------------------------------------------------------------
  // Approval

  /** A JSON value for is_verified: a boolean (0 and 1 read as one), or anything the Boolean column refuses. */
  datatype FlagValue = Flag(b: bool) | Unstorable

  /** The JSON body: anything but an object makes the handler raise. */
  datatype ApprovalBody = NotAnObject | Object(isVerified: Option<FlagValue>)

  const NoSuchAgent := "Agent does not found"
  const NoUpdateData := "No update data provided"

  /** `User.query.get(userId)` as a position in the table. */
  function UserIndex(users: seq<Row<UserData>>, userId: nat): (k: Option<nat>)
    ensures k.Some? ==> k.value < |users| && users[k.value].id == userId
    ensures k.None? ==> forall u :: u in users ==> u.id != userId
  {
    FirstIndex(users, (u: Row<UserData>) => u.id == userId)
  }

  /** AgentApproval.patch. */
  function ApproveSpec(t: Tables, userId: nat, body: ApprovalBody): (o: Outcome<string>)
    ensures UserIndex(t.users, userId).None? ==> o == Outcome(t, Completed(Refusal(404, NoSuchAgent)))
    ensures UserIndex(t.users, userId).Some? && body == Object(None) ==>
      o == Outcome(t, Completed(Refusal(400, NoUpdateData)))
    ensures o.run.Crashed? <==>
      UserIndex(t.users, userId).Some? && (body.NotAnObject? || body == Object(Some(Unstorable)))
    ensures !(o.run.Completed? && o.run.answer.Reply?) ==> o.tables == t
    ensures o.run.Completed? && o.run.answer.Reply? ==>
      var k := UserIndex(t.users, userId).value;
      && body.Object? && body.isVerified.Some? && body.isVerified.value.Flag?
      && o.run.answer == Reply(200, "Agent verified status updated to " + BoolToString(body.isVerified.value.b) + " ")
      && o.tables == t.(users := t.users[k := t.users[k].(data := t.users[k].data.(isVerified := body.isVerified.value.b))])
  {
    match UserIndex(t.users, userId)
    case None => Outcome(t, Completed(Refusal(404, NoSuchAgent)))
    case Some(k) =>
      match body
      case NotAnObject => Outcome(t, Crashed("argument of type 'NoneType' is not iterable"))
      case Object(None) => Outcome(t, Completed(Refusal(400, NoUpdateData)))
      case Object(Some(Unstorable)) => Outcome(t, Crashed("Not a boolean value"))
      case Object(Some(Flag(b))) =>
        var u := t.users[k];
        Outcome(t.(users := t.users[k := u.(data := u.data.(isVerified := b))]),
                Completed(Reply(200, "Agent verified status updated to " + BoolToString(b) + " ")))
  }

  /** AgentApproval.patch on the session: one attribute assignment, then commit. */
  method Approve(db: Database, userId: nat, body: ApprovalBody) returns (run: HandlerRun<string>)
    modifies db
    ensures db.State() == ApproveSpec(old(db.State()), userId, body).tables
    ensures run == ApproveSpec(old(db.State()), userId, body).run
  {
    var k := UserIndex(db.users, userId);
    if k.None? {
      return Completed(Refusal(404, NoSuchAgent));
    }
    match body {
      case NotAnObject =>
        run := Crashed("argument of type 'NoneType' is not iterable");
      case Object(None) =>
        run := Completed(Refusal(400, NoUpdateData));
      case Object(Some(Unstorable)) =>
        run := Crashed("Not a boolean value");
      case Object(Some(Flag(b))) =>
        var u := db.users[k.value];
        db.users := db.users[k.value := u.(data := u.data.(isVerified := b))];
        run := Completed(Reply(200, "Agent verified status updated to " + BoolToString(b) + " "));
    }
  }

  /**
   * The approval does not look at the target's role: any existing user,
   * admin or plain user alike, has its flag set.
   */
  lemma ApprovalIgnoresRole(t: Tables, userId: nat, b: bool)
    requires exists u :: u in t.users && u.id == userId
    ensures ApproveSpec(t, userId, Object(Some(Flag(b)))).run.Completed?
    ensures ApproveSpec(t, userId, Object(Some(Flag(b)))).run.answer.status == 200
  {
  }

  /** Approving an agent takes it off the pending list; revoking puts it back; the list keeps the table ids in order. */
  lemma ApprovalMovesPending(t: Tables, userId: nat, b: bool)
    requires Increasing(t.users)
    requires exists u :: u in t.users && u.id == userId && u.data.role == "agent"
    ensures var after := ApproveSpec(t, userId, Object(Some(Flag(b)))).tables.users;
      (exists u :: u in PendingAgents(after) && u.id == userId) <==> !b
  {
    var k := UserIndex(t.users, userId).value;
    var after := ApproveSpec(t, userId, Object(Some(Flag(b)))).tables.users;
    var w :| w in t.users && w.id == userId && w.data.role == "agent";
    var j :| 0 <= j < |t.users| && t.users[j] == w;
    assert j == k;
    assert after[k] in after;
    forall u | u in after && u.id == userId ensures u == after[k] {
      var i :| 0 <= i < |after| && after[i] == u;
      assert after[i].id == t.users[i].id;
      assert i == k;
    }
  }

  // ---------------------------------------------------------------------
  // Recent users

  datatype RecentUserView = RecentUserView(name: string, email: string, role: string, date: int, status: string)

  function RecentUserViewOf(u: Row<UserData>): RecentUserView
  {
    RecentUserView(u.data.firstName + " " + u.data.lastName, u.data.email, Capitalize(u.data.role),
      u.data.createdAt, if u.data.isVerified then "active" else "inactive")
  }

  /** RecentUsers.get: the ten newest users. */
  function RecentUsersList(t: Tables): (r: Answer<seq<RecentUserView>>)
    ensures r.Reply? && r.status == 200
    ensures |r.value| == if |t.users| < 10 then |t.users| else 10
    ensures forall i :: 0 <= i < |r.value| ==>
      var u := t.users[|t.users| - 1 - i];
      && r.value[i] == RecentUserViewOf(u)
      && r.value[i].email == u.data.email
      && (r.value[i].status == "active" <==> u.data.isVerified)
  {
    var newest := Newest(t.users, 10);
    Reply(200, seq(|newest|, i requires 0 <= i < |newest| => RecentUserViewOf(newest[i])))
  }
}

=== FILE: agent_edits.dfy ===
/**
 * The write side of resources/agent.py: creating, updating and deleting a
 * property. Each operation is a pure function from the tables before the
 * request to the tables after it and the handler's ending (`...Spec`), and
 * a method on the database session that performs the same steps in place,
 * with the loops the source has, proved equal to it.
 *
 * A handler that raises commits nothing: the session is discarded and the
 * gate answers 401.
 */
module AgentEdits {
  import opened Records
  import opened Text
  import opened Gate
  import opened Store
  import opened AgentQueries

  /** A file part of the multipart request; it is falsy when its filename is empty. */
  datatype Upload = Upload(filename: string)

  predicate Truthy(u: Upload)
  {
    u.filename != ""
  }

  /** The tables after a request, and how the handler ended. */
  datatype Outcome<T> = Outcome(tables: Tables, run: HandlerRun<T>)

  const NotAnInteger := "invalid literal for int() with base 10"
  const NotJson := "JSONDecodeError"

  /** How many of the first `n` parts are truthy, that is, stored. */
  function StoredCount(uploads: seq<Upload>, n: nat): nat
    requires n <= |uploads|
  {
    if n == 0 then 0 else StoredCount(uploads, n - 1) + (if Truthy(uploads[n - 1]) then 1 else 0)
  }

  /** The URL of an upload stored by the update, and of every video. */
  function UploadUrl(propertyId: nat, filename: string): string
  {
    "/uploads/property_" + NatToString(propertyId) + "_" + filename
  }

  /** The URL of the `index`-th image part stored by the create endpoint. */
  function CreateImageUrl(propertyId: nat, index: nat, filename: string): string
  {
    "/uploads/property_" + NatToString(propertyId) + "_" + NatToString(index) + "_" + filename
  }

  /** `request.form.get(key, type=int)`: None when absent or not an integer. */
  function OptionalInt(v: Option<string>): Option<int>
  {
    match v
    case None => None
    case Some(s) => ParseInt(s)
  }

  // ---------------------------------------------------------------------
  // Create

  datatype CreateReply = Created(propertyId: nat) | FieldsMissing(fields: seq<string>)

  const RequiredMessage := "Title, price, listing type, and property type are required"

  /** The create form passes validation: all four required fields are truthy. */
  predicate Validated(form: map<string, string>)
  {
    Supplied(form, "title") && Supplied(form, "price") &&
    Supplied(form, "listing_type") && Supplied(form, "property_type_id")
  }

  /** The required fields that are absent or empty, in the order the source checks them. */
  function MissingFields(form: map<string, string>): (m: seq<string>)
    ensures m == [] <==> Validated(form)
    ensures forall f :: f in m <==> f in ["title", "price", "listing_type", "property_type_id"] && !Supplied(form, f)
    ensures |m| <= 4
  {
    (if !Supplied(form, "title") then ["title"] else []) +
    (if !Supplied(form, "price") then ["price"] else []) +
    (if !Supplied(form, "listing_type") then ["listing_type"] else []) +
    (if !Supplied(form, "property_type_id") then ["property_type_id"] else [])
  }

  /**
   * The new Property row's columns: the two integer conversions raise on a
   * malformed value; the optional integers become NULL instead.
   */
  function NewProperty(form: map<string, string>, agentId: nat, now: int): (d: Option<PropertyData>)
    requires Validated(form)
    ensures d.Some? <==> ParseInt(form["price"]).Some? && ParseInt(form["property_type_id"]).Some?
    ensures d.Some? ==>
      && d.value.agentId == agentId
      && d.value.title == form["title"]
      && d.value.price == ParseInt(form["price"]).value
      && d.value.propertyTypeId == ParseInt(form["property_type_id"]).value
      && d.value.listingType == form["listing_type"]
      && d.value.currency == FormGetOr(form, "currency", "Ksh")
      && d.value.status == FormGetOr(form, "status", "onsale")
      && d.value.description == FormGet(form, "description")
      && d.value.bedrooms == OptionalInt(FormGet(form, "bedrooms"))
      && d.value.bathrooms == OptionalInt(FormGet(form, "bathrooms"))
      && d.value.areaSize == OptionalInt(FormGet(form, "area_size"))
      && d.value.areaUnit == FormGet(form, "area_unit")
      && d.value.listingDate == now && d.value.createdAt == now
  {
    match (ParseInt(form["price"]), ParseInt(form["property_type_id"]))
    case (Some(price), Some(typeId)) =>
      Some(PropertyData(
        form["title"], FormGet(form, "description"), price,
        FormGetOr(form, "currency", "Ksh"), form["listing_type"],
        FormGetOr(form, "status", "onsale"), typeId, agentId,
        OptionalInt(FormGet(form, "bedrooms")), OptionalInt(FormGet(form, "bathrooms")),
        OptionalInt(FormGet(form, "area_size")), FormGet(form, "area_unit"), now, now))
    case _ => None
  }

  /** is_primary of a created image: only the first part, and only when is_primary_0 reads "true" in any case. */
  predicate PrimaryRequested(form: map<string, string>, index: nat)
  {
    index == 0 && Lower(FormGetOr(form, "is_primary_0", "false")) == "true"
  }

  /** The image table after the create endpoint's loop has read the first `n` parts. */
  function AddCreateImages(table: seq<Row<ImageData>>, propertyId: nat, form: map<string, string>,
                           uploads: seq<Upload>, n: nat): (r: seq<Row<ImageData>>)
    requires n <= |uploads|
    ensures |r| == |table| + StoredCount(uploads, n)
    ensures r[..|table|] == table
    ensures forall k :: |table| <= k < |r| ==> r[k].data.propertyId == propertyId
    ensures forall k :: |table| <= k < |r| && r[k].data.isPrimary ==>
      k == |table| && Truthy(uploads[0]) && PrimaryRequested(form, 0)
    ensures Increasing(table) ==> Increasing(r)
    decreases n
  {
    if n == 0 then table
    else
      var prev := AddCreateImages(table, propertyId, form, uploads, n - 1);
      var u := uploads[n - 1];
      if !Truthy(u) then prev
      else
        prev + [Row(NextId(prev), ImageData(propertyId, CreateImageUrl(propertyId, n - 1, u.filename), PrimaryRequested(form, n - 1)))]
  }

  /** The positions, in part order, of the truthy parts among the first `n`. */
  function StoredIndices(uploads: seq<Upload>, n: nat): (r: seq<nat>)
    requires n <= |uploads|
    ensures |r| == StoredCount(uploads, n)
    ensures forall j :: 0 <= j < |r| ==> r[j] < n && Truthy(uploads[r[j]])
    ensures forall j, j' :: 0 <= j < j' < |r| ==> r[j] < r[j']
    ensures forall i :: 0 <= i < n && Truthy(uploads[i]) ==> i in r
    decreases n
  {
    if n == 0 then []
    else StoredIndices(uploads, n - 1) + (if Truthy(uploads[n - 1]) then [n - 1] else [])
  }

  /** From position `base` on, the j-th row of `r` is the image stored for part `idx[j]`. */
  predicate ImagesFromParts(base: nat, r: seq<Row<ImageData>>, idx: seq<nat>, propertyId: nat,
                            form: map<string, string>, uploads: seq<Upload>)
  {
    base + |idx| <= |r| &&
    forall j :: 0 <= j < |idx| ==>
      (idx[j] < |uploads| && r[base + j].data ==
         ImageData(propertyId, CreateImageUrl(propertyId, idx[j], uploads[idx[j]].filename), PrimaryRequested(form, idx[j])))
  }

  /**
   * The j-th image the create endpoint stores comes from the j-th truthy
   * part: its URL names that part's position and filename, and it is
   * primary exactly when that position is 0 and is_primary_0 reads "true".
   */
  lemma {:induction false} CreateImagesFollowParts(table: seq<Row<ImageData>>, propertyId: nat, form: map<string, string>,
                                                   uploads: seq<Upload>, n: nat)
    requires n <= |uploads|
    ensures ImagesFromParts(|table|, AddCreateImages(table, propertyId, form, uploads, n), StoredIndices(uploads, n),
                            propertyId, form, uploads)
    decreases n
  {
    if n > 0 {
      CreateImagesFollowParts(table, propertyId, form, uploads, n - 1);
      var prev := AddCreateImages(table, propertyId, form, uploads, n - 1);
      var before := StoredIndices(uploads, n - 1);
      var u := uploads[n - 1];
      if Truthy(u) {
        var row := Row(NextId(prev), ImageData(propertyId, CreateImageUrl(propertyId, n - 1, u.filename), PrimaryRequested(form, n - 1)));
        StoreOneImage(|table|, prev, before, row, n - 1, propertyId, form, uploads);
      }
    }
  }

  /** Appending the image for part `i` extends the correspondence by one. */
  lemma StoreOneImage(base: nat, prev: seq<Row<ImageData>>, before: seq<nat>, row: Row<ImageData>, i: nat,
                      propertyId: nat, form: map<string, string>, uploads: seq<Upload>)
    requires ImagesFromParts(base, prev, before, propertyId, form, uploads) && base + |before| == |prev|
    requires i < |uploads|
    requires row.data == ImageData(propertyId, CreateImageUrl(propertyId, i, uploads[i].filename), PrimaryRequested(form, i))
    ensures ImagesFromParts(base, prev + [row], before + [i], propertyId, form, uploads)
  {
    var r, idx := prev + [row], before + [i];
    forall j | 0 <= j < |idx|
      ensures idx[j] < |uploads| && r[base + j].data ==
        ImageData(propertyId, CreateImageUrl(propertyId, idx[j], uploads[idx[j]].filename), PrimaryRequested(form, idx[j]))
    {
      if j < |before| {
        assert r[base + j] == prev[base + j] && idx[j] == before[j];
      }
    }
  }

  /** The first stored image is primary exactly when it is part 0 and is_primary_0 reads "true". */
  lemma CreatePrimaryRule(table: seq<Row<ImageData>>, propertyId: nat, form: map<string, string>, uploads: seq<Upload>)
    ensures var r := AddCreateImages(table, propertyId, form, uploads, |uploads|);
      |r| > |table| ==> (r[|table|].data.isPrimary <==> Truthy(uploads[0]) && PrimaryRequested(form, 0))
  {
    var r := AddCreateImages(table, propertyId, form, uploads, |uploads|);
    if |r| > |table| {
      CreateImagesFollowParts(table, propertyId, form, uploads, |uploads|);
      var idx := StoredIndices(uploads, |uploads|);
      assert r[|table| + 0].data.isPrimary == PrimaryRequested(form, idx[0]);
      if Truthy(uploads[0]) {
        assert 0 in idx;
      }
    }
  }

  /** The video table after a video loop (create or update) has read the first `n` parts. */
  function AddVideos(table: seq<Row<VideoData>>, propertyId: nat, uploads: seq<Upload>, n: nat): (r: seq<Row<VideoData>>)
    requires n <= |uploads|
    ensures |r| == |table| + StoredCount(uploads, n)
    ensures r[..|table|] == table
    ensures forall k :: |table| <= k < |r| ==> r[k].data.propertyId == propertyId
    ensures Increasing(table) ==> Increasing(r)
    decreases n
  {
    if n == 0 then table
    else
      var prev := AddVideos(table, propertyId, uploads, n - 1);
      var u := uploads[n - 1];
      if !Truthy(u) then prev
      else prev + [Row(NextId(prev), VideoData(propertyId, UploadUrl(propertyId, u.filename)))]
  }

  /** A Location row and its link, added only when a city or a neighborhood is given. */
  function AddLocation(t: Tables, propertyId: nat, form: map<string, string>): (r: Tables)
    ensures !Supplied(form, "city") && !Supplied(form, "neighborhood") ==> r == t
    ensures Supplied(form, "city") || Supplied(form, "neighborhood") ==>
      var loc := Row(NextId(t.locations), LocationData(FormGet(form, "city"), FormGet(form, "neighborhood")));
      && r.locations == t.locations + [loc]
      && r.propertyLocations == t.propertyLocations + [Row(NextId(t.propertyLocations), PropertyLocationData(propertyId, loc.id))]
    ensures r.(locations := t.locations, propertyLocations := t.propertyLocations) == t
  {
    if Supplied(form, "city") || Supplied(form, "neighborhood") then
      var loc := Row(NextId(t.locations), LocationData(FormGet(form, "city"), FormGet(form, "neighborhood")));
      t.(locations := t.locations + [loc],
         propertyLocations := t.propertyLocations + [Row(NextId(t.propertyLocations), PropertyLocationData(propertyId, loc.id))])
    else t
  }

  /** AgentPropertyCreateResource.post. */
  function CreateSpec(t: Tables, identity: nat, form: map<string, string>,
                      images: seq<Upload>, videos: seq<Upload>, now: int): (o: Outcome<CreateReply>)
    ensures AgentProfileOf(t, identity).None? ==> o == Outcome(t, Completed(Refusal(404, NoAgentProfile)))
    ensures AgentProfileOf(t, identity).Some? && MissingFields(form) != [] ==>
      o == Outcome(t, Completed(Reply(400, FieldsMissing(MissingFields(form)))))
    ensures o.run.Crashed? <==>
      AgentProfileOf(t, identity).Some? && Validated(form) &&
      (ParseInt(form["price"]).None? || ParseInt(form["property_type_id"]).None?)
    ensures o.run.Crashed? ==> o.tables == t
    ensures (AgentProfileOf(t, identity).Some? && Validated(form) &&
             ParseInt(form["price"]).Some? && ParseInt(form["property_type_id"]).Some?) ==>
      o.run == Completed(Reply(201, Created(NextId(t.properties))))
    ensures o.run.Completed? && o.run.answer.Reply? && o.run.answer.status == 201 ==>
      var id := NextId(t.properties);
      && o.tables.images == AddCreateImages(t.images, id, form, images, |images|)
      && o.tables.videos == AddVideos(t.videos, id, videos, |videos|)
      && o.tables.locations == AddLocation(t, id, form).locations
      && o.tables.propertyLocations == AddLocation(t, id, form).propertyLocations
      && (|o.tables.images| > |t.images| ==>
            (o.tables.images[|t.images|].data.isPrimary <==> Truthy(images[0]) && PrimaryRequested(form, 0)))
    ensures o.run.Completed? && o.run.answer.Reply? && o.run.answer.status == 201 ==>
      var id := NextId(t.properties);
      && o.run.answer.value == Created(id)
      && |o.tables.properties| == |t.properties| + 1
      && o.tables.properties[..|t.properties|] == t.properties
      && o.tables.properties[|t.properties|].id == id
      && o.tables.properties[|t.properties|].data == NewProperty(form, AgentProfileOf(t, identity).value.id, now).value
      && Locate(o.tables, identity, id).Reply?
      && |o.tables.images| == |t.images| + StoredCount(images, |images|)
      && o.tables.images[..|t.images|] == t.images
      && (forall k :: |t.images| <= k < |o.tables.images| ==> o.tables.images[k].data.propertyId == id)
      && (forall k :: |t.images| <= k < |o.tables.images| && o.tables.images[k].data.isPrimary ==> k == |t.images|)
      && |o.tables.videos| == |t.videos| + StoredCount(videos, |videos|)
      && o.tables.videos[..|t.videos|] == t.videos
      && (forall k :: |t.videos| <= k < |o.tables.videos| ==> o.tables.videos[k].data.propertyId == id)
      && o.tables.(properties := t.properties, images := t.images, videos := t.videos,
                   locations := t.locations, propertyLocations := t.propertyLocations) == t
  {
    match AgentProfileOf(t, identity)
    case None => Outcome(t, Completed(Refusal(404, NoAgentProfile)))
    case Some(profile) =>
      if MissingFields(form) != [] then Outcome(t, Completed(Reply(400, FieldsMissing(MissingFields(form)))))
      else match NewProperty(form, profile.id, now)
        case None => Outcome(t, Crashed(NotAnInteger))
        case Some(data) =>
          var id := NextId(t.properties);
          var t1 := t.(properties := t.properties + [Row(id, data)],
                       images := AddCreateImages(t.images, id, form, images, |images|),
                       videos := AddVideos(t.videos, id, videos, |videos|));
          var t2 := AddLocation(t1, id, form);
          assert t2.properties[|t.properties|] in t2.properties;
          CreatePrimaryRule(t.images, id, form, images);
          Outcome(t2, Completed(Reply(201, Created(id))))
  }

  /** Creating a property keeps every table in id order and the contact columns unique. */
  lemma CreateKeepsWellFormed(t: Tables, identity: nat, form: map<string, string>,
                              images: seq<Upload>, videos: seq<Upload>, now: int)
    requires WellFormed(t)
    ensures WellFormed(CreateSpec(t, identity, form, images, videos, now).tables)
  {
    var o := CreateSpec(t, identity, form, images, videos, now);
    if o.run.Completed? && o.run.answer.Reply? && o.run.answer.status == 201 {
      var id := NextId(t.properties);
      AppendKeepsIncreasing(t.properties, o.tables.properties[|t.properties|]);
      assert o.tables.properties == t.properties + [o.tables.properties[|t.properties|]];
      var t1 := t.(properties := o.tables.properties,
                   images := AddCreateImages(t.images, id, form, images, |images|),
                   videos := AddVideos(t.videos, id, videos, |videos|));
      if Supplied(form, "city") || Supplied(form, "neighborhood") {
        var loc := Row(NextId(t.locations), LocationData(FormGet(form, "city"), FormGet(form, "neighborhood")));
        AppendKeepsIncreasing(t.locations, loc);
        AppendKeepsIncreasing(t.propertyLocations, Row(NextId(t.propertyLocations), PropertyLocationData(id, loc.id)));
      }
    }
  }

  /** The create endpoint, adding the rows one at a time as the source does. */
  method Create(db: Database, identity: nat, form: map<string, string>,
                images: seq<Upload>, videos: seq<Upload>, now: int) returns (run: HandlerRun<CreateReply>)
    modifies db
    ensures db.State() == CreateSpec(old(db.State()), identity, form, images, videos, now).tables
    ensures run == CreateSpec(old(db.State()), identity, form, images, videos, now).run
  {
    var t := db.State();
    var profile := AgentProfileOf(t, identity);
    if profile.None? {
      return Completed(Refusal(404, NoAgentProfile));
    }
    var missing := MissingFields(form);
    if missing != [] {
      return Completed(Reply(400, FieldsMissing(missing)));
    }
    var data := NewProperty(form, profile.value.id, now);
    if data.None? {
      return Crashed(NotAnInteger);
    }
    var id := NextId(db.properties);
    db.properties := db.properties + [Row(id, data.value)];
    StoreCreateImages(db, id, form, images);
    StoreVideos(db, id, videos);
    StoreLocation(db, id, form);
    run := Completed(Reply(201, Created(id)));
  }

  /** The create endpoint's image loop: part `i` is stored as the `i`-th image. */
  method StoreCreateImages(db: Database, id: nat, form: map<string, string>, images: seq<Upload>)
    modifies db
    ensures db.State() == old(db.State()).(images := AddCreateImages(old(db.images), id, form, images, |images|))
  {
    for i := 0 to |images|
      invariant db.State() == old(db.State()).(images := AddCreateImages(old(db.images), id, form, images, i))
    {
      if Truthy(images[i]) {
        db.images := db.images + [Row(NextId(db.images), ImageData(id, CreateImageUrl(id, i, images[i].filename), PrimaryRequested(form, i)))];
      }
    }
  }

  /** The video loop of both the create and the update endpoint. */
  method StoreVideos(db: Database, id: nat, videos: seq<Upload>)
    modifies db
    ensures db.State() == old(db.State()).(videos := AddVideos(old(db.videos), id, videos, |videos|))
  {
    for i := 0 to |videos|
      invariant db.State() == old(db.State()).(videos := AddVideos(old(db.videos), id, videos, i))
    {
      if Truthy(videos[i]) {
        db.videos := db.videos + [Row(NextId(db.videos), VideoData(id, UploadUrl(id, videos[i].filename)))];
      }
    }
  }

  method StoreLocation(db: Database, id: nat, form: map<string, string>)
    modifies db
    ensures db.State() == AddLocation(old(db.State()), id, form)
  {
    if Supplied(form, "city") || Supplied(form, "neighborhood") {
      var loc := Row(NextId(db.locations), LocationData(FormGet(form, "city"), FormGet(form, "neighborhood")));
      db.locations := db.locations + [loc];
      db.propertyLocations := db.propertyLocations + [Row(NextId(db.propertyLocations), PropertyLocationData(id, loc.id))];
    }
  }

  // ---------------------------------------------------------------------
  // Update

  /** A truthy form value that int() cannot read: the update raises on it. */
  predicate BadInteger(form: map<string, string>, key: string)
  {
    Supplied(form, key) && ParseInt(form[key]).None?
  }

  /** No integer field of the update form makes int() raise. */
  predicate IntegersReadable(form: map<string, string>)
  {
    !BadInteger(form, "price") && !BadInteger(form, "property_type_id") &&
    !BadInteger(form, "bedrooms") && !BadInteger(form, "bathrooms") && !BadInteger(form, "area_size")
  }

  /** A text column: replaced by a truthy form value, kept otherwise. */
  function PatchText(form: map<string, string>, key: string, current: string): string
  {
    if Supplied(form, key) then form[key] else current
  }

  function PatchOptionalText(form: map<string, string>, key: string, current: Option<string>): Option<string>
  {
    if Supplied(form, key) then Some(form[key]) else current
  }

  function PatchInt(form: map<string, string>, key: string, current: int): int
    requires !BadInteger(form, key)
  {
    if Supplied(form, key) then ParseInt(form[key]).value else current
  }

  function PatchOptionalInt(form: map<string, string>, key: string, current: Option<int>): Option<int>
    requires !BadInteger(form, key)
  {
    if Supplied(form, key) then ParseInt(form[key]) else current
  }

  /**
   * The property's columns after the update's field assignments: every
   * truthy field overwrites its column, an absent or empty one leaves it,
   * and the owner, the listing date and the creation time are never touched.
   */
  function Patched(p: PropertyData, form: map<string, string>): (r: Option<PropertyData>)
    ensures r.Some? <==> IntegersReadable(form)
    ensures r.Some? ==>
      && r.value.agentId == p.agentId
      && r.value.listingDate == p.listingDate
      && r.value.createdAt == p.createdAt
      && r.value.title == (if Supplied(form, "title") then form["title"] else p.title)
      && r.value.description == (if Supplied(form, "description") then Some(form["description"]) else p.description)
      && Some(r.value.price) == (if Supplied(form, "price") then ParseInt(form["price"]) else Some(p.price))
      && r.value.currency == (if Supplied(form, "currency") then form["currency"] else p.currency)
      && r.value.listingType == (if Supplied(form, "listing_type") then form["listing_type"] else p.listingType)
      && r.value.status == (if Supplied(form, "status") then form["status"] else p.status)
      && Some(r.value.propertyTypeId) ==
         (if Supplied(form, "property_type_id") then ParseInt(form["property_type_id"]) else Some(p.propertyTypeId))
      && r.value.bedrooms == (if Supplied(form, "bedrooms") then ParseInt(form["bedrooms"]) else p.bedrooms)
      && r.value.bathrooms == (if Supplied(form, "bathrooms") then ParseInt(form["bathrooms"]) else p.bathrooms)
      && r.value.areaSize == (if Supplied(form, "area_size") then ParseInt(form["area_size"]) else p.areaSize)
      && r.value.areaUnit == (if Supplied(form, "area_unit") then Some(form["area_unit"]) else p.areaUnit)
  {
    if !IntegersReadable(form) then None
    else Some(PropertyData(
      PatchText(form, "title", p.title),
      PatchOptionalText(form, "description", p.description),
      PatchInt(form, "price", p.price),
      PatchText(form, "currency", p.currency),
      PatchText(form, "listing_type", p.listingType),
      PatchText(form, "status", p.status),
      PatchInt(form, "property_type_id", p.propertyTypeId),
      p.agentId,
      PatchOptionalInt(form, "bedrooms", p.bedrooms),
      PatchOptionalInt(form, "bathrooms", p.bathrooms),
      PatchOptionalInt(form, "area_size", p.areaSize),
      PatchOptionalText(form, "area_unit", p.areaUnit),
      p.listingDate, p.createdAt))
  }

  /** A form with no truthy field leaves the property as it is. */
  lemma EmptyPatchChangesNothing(p: PropertyData, form: map<string, string>)
    requires forall k :: k in form ==> form[k] == ""
    ensures Patched(p, form) == Some(p)
  {
  }

  /** Applying the same form twice is applying it once. */
  lemma PatchIsIdempotent(p: PropertyData, form: map<string, string>)
    requires Patched(p, form).Some?
    ensures Patched(Patched(p, form).value, form) == Patched(p, form)
  {
  }

  /**
   * The image table after the update's loop has read the first `n` parts:
   * a stored part is primary exactly when the property has no image at
   * that moment, counting the parts stored before it.
   */
  function AddUpdateImages(table: seq<Row<ImageData>>, propertyId: nat, uploads: seq<Upload>, n: nat): (r: seq<Row<ImageData>>)
    requires n <= |uploads|
    ensures |r| == |table| + StoredCount(uploads, n)
    ensures r[..|table|] == table
    ensures forall k :: |table| <= k < |r| ==> r[k].data.propertyId == propertyId
    decreases n
  {
    if n == 0 then table
    else
      var prev := AddUpdateImages(table, propertyId, uploads, n - 1);
      var u := uploads[n - 1];
      if !Truthy(u) then prev
      else prev + [Row(NextId(prev), ImageData(propertyId, UploadUrl(propertyId, u.filename), |ImagesOf(prev, propertyId)| == 0))]
  }

  /**
   * Of the images an update stores, only the first can be primary, and it
   * is exactly when the property had no image before the request.
   */
  predicate OnlyFirstAddedIsPrimary(table: seq<Row<ImageData>>, r: seq<Row<ImageData>>, propertyId: nat)
  {
    forall k :: |table| <= k < |r| ==> (r[k].data.isPrimary <==> k == |table| && ImagesOf(table, propertyId) == [])
  }

  lemma {:induction false} UpdatePrimaryRule(table: seq<Row<ImageData>>, propertyId: nat, uploads: seq<Upload>, n: nat)
    requires n <= |uploads|
    ensures OnlyFirstAddedIsPrimary(table, AddUpdateImages(table, propertyId, uploads, n), propertyId)
    decreases n
  {
    if n > 0 {
      UpdatePrimaryRule(table, propertyId, uploads, n - 1);
      var prev := AddUpdateImages(table, propertyId, uploads, n - 1);
      assert OnlyFirstAddedIsPrimary(table, prev, propertyId);
      var r := AddUpdateImages(table, propertyId, uploads, n);
      var u := uploads[n - 1];
      if !Truthy(u) {
        assert r == prev;
        forall k | |table| <= k < |r|
          ensures r[k].data.isPrimary <==> k == |table| && ImagesOf(table, propertyId) == []
        {
          assert r[k] == prev[k];
        }
      } else {
        var row := Row(NextId(prev), ImageData(propertyId, UploadUrl(propertyId, u.filename), |ImagesOf(prev, propertyId)| == 0));
        assert r == prev + [row];
        forall k | |table| <= k < |r|
          ensures r[k].data.isPrimary <==> k == |table| && ImagesOf(table, propertyId) == []
        {
          if k < |prev| {
            assert r[k] == prev[k];
          } else if |prev| > |table| {
            assert prev[|table|] in ImagesOf(prev, propertyId);
          } else {
            assert prev == prev[..|table|] == table;
          }
        }
      }
    }
  }

  /** A stored upload becomes one row appended at the next id. */
  lemma UpdateImagesStep(table: seq<Row<ImageData>>, propertyId: nat, uploads: seq<Upload>, n: nat)
    requires 0 < n <= |uploads| && Truthy(uploads[n - 1])
    ensures var prev := AddUpdateImages(table, propertyId, uploads, n - 1);
      var r := AddUpdateImages(table, propertyId, uploads, n);
      r == prev + [r[|prev|]] && r[|prev|].id == NextId(prev)
  {
  }

  /** The images an update stores get ids above every existing one. */
  lemma {:induction false} UpdateImagesAreFresh(table: seq<Row<ImageData>>, propertyId: nat, uploads: seq<Upload>, n: nat)
    requires n <= |uploads|
    ensures FreshPast(table, AddUpdateImages(table, propertyId, uploads, n))
    decreases n
  {
    if n > 0 {
      UpdateImagesAreFresh(table, propertyId, uploads, n - 1);
      var prev := AddUpdateImages(table, propertyId, uploads, n - 1);
      var r := AddUpdateImages(table, propertyId, uploads, n);
      if Truthy(uploads[n - 1]) {
        UpdateImagesStep(table, propertyId, uploads, n);
        AppendStaysAbove(table, prev, r[|prev|]);
      }
    }
  }

  /** The images an update stores keep the table in id order. */
  lemma {:induction false} UpdateImagesKeepOrder(table: seq<Row<ImageData>>, propertyId: nat, uploads: seq<Upload>, n: nat)
    requires n <= |uploads| && Increasing(table)
    ensures Increasing(AddUpdateImages(table, propertyId, uploads, n))
    decreases n
  {
    if n > 0 {
      UpdateImagesKeepOrder(table, propertyId, uploads, n - 1);
      var prev := AddUpdateImages(table, propertyId, uploads, n - 1);
      var r := AddUpdateImages(table, propertyId, uploads, n);
      if Truthy(uploads[n - 1]) {
        AppendKeepsIncreasing(prev, r[|prev|]);
        assert r == prev + [r[|prev|]];
      }
    }
  }

  /** The decoded `existing_images` or `existing_videos` field. */
  datatype KeptIds = NotSent | Unreadable | Ids(ids: seq<int>)

  /** The bulk delete of the property's images whose ids are not listed. */
  function PruneImages(rows: seq<Row<ImageData>>, propertyId: nat, kept: KeptIds): (r: seq<Row<ImageData>>)
    ensures forall x :: x in r <==> x in rows && (kept.Ids? && x.data.propertyId == propertyId ==> x.id in kept.ids)
  {
    if kept.Ids? then
      Filter(rows, (x: Row<ImageData>) => x.data.propertyId != propertyId || x.id in kept.ids)
    else rows
  }

  function PruneVideos(rows: seq<Row<VideoData>>, propertyId: nat, kept: KeptIds): (r: seq<Row<VideoData>>)
    ensures forall x :: x in r <==> x in rows && (kept.Ids? && x.data.propertyId == propertyId ==> x.id in kept.ids)
  {
    if kept.Ids? then
      Filter(rows, (x: Row<VideoData>) => x.data.propertyId != propertyId || x.id in kept.ids)
    else rows
  }

  /** AgentPropertyUpdateResource.put. */
  function UpdateSpec(t: Tables, identity: nat, propertyId: nat, form: map<string, string>,
                      images: seq<Upload>, videos: seq<Upload>, keepImages: KeptIds, keepVideos: KeptIds): (o: Outcome<nat>)
    ensures Locate(t, identity, propertyId).Refusal? ==>
      o == Outcome(t, Completed(Refusal(404, Locate(t, identity, propertyId).message)))
    ensures o.run.Crashed? <==>
      Locate(t, identity, propertyId).Reply? &&
      (!IntegersReadable(form) || keepImages.Unreadable? || keepVideos.Unreadable?)
    ensures o.run.Crashed? ==> o.tables == t
    ensures (Locate(t, identity, propertyId).Reply? && IntegersReadable(form) &&
             !keepImages.Unreadable? && !keepVideos.Unreadable?) ==>
      o.run == Completed(Reply(200, propertyId))
    ensures o.run.Completed? && o.run.answer.Reply? ==>
      && o.tables.images == PruneImages(AddUpdateImages(t.images, propertyId, images, |images|), propertyId, keepImages)
      && o.tables.videos == PruneVideos(AddVideos(t.videos, propertyId, videos, |videos|), propertyId, keepVideos)
      && (keepVideos.NotSent? ==> forall x :: x in t.videos ==> x in o.tables.videos)
      && (keepImages.Ids? ==> forall x :: x in t.images && x.id in keepImages.ids ==> x in o.tables.images)
      && (keepVideos.Ids? ==> forall x :: x in t.videos && x.id in keepVideos.ids ==> x in o.tables.videos)
    ensures o.run.Completed? && o.run.answer.Reply? ==>
      var target := Locate(t, identity, propertyId).value;
      && o.run.answer == Reply(200, propertyId)
      && o.tables.properties == t.properties[target.index := Row(propertyId, Patched(target.property.data, form).value)]
      && Locate(o.tables, identity, propertyId).Reply?
      && (forall x :: x in t.images && x.data.propertyId != propertyId ==> x in o.tables.images)
      && (forall x :: x in t.videos && x.data.propertyId != propertyId ==> x in o.tables.videos)
      && (keepImages.NotSent? ==> forall x :: x in t.images ==> x in o.tables.images)
      && (keepImages.Ids? ==> forall x :: x in o.tables.images && x.data.propertyId == propertyId ==> x.id in keepImages.ids)
      && (keepVideos.Ids? ==> forall x :: x in o.tables.videos && x.data.propertyId == propertyId ==> x.id in keepVideos.ids)
      && o.tables.(properties := t.properties, images := t.images, videos := t.videos) == t
  {
    match Locate(t, identity, propertyId)
    case Refusal(status, message) => Outcome(t, Completed(Refusal(status, message)))
    case Reply(_, target) =>
      match Patched(target.property.data, form)
      case None => Outcome(t, Crashed(NotAnInteger))
      case Some(data) =>
        if keepImages.Unreadable? || keepVideos.Unreadable? then Outcome(t, Crashed(NotJson))
        else
          RewrittenKeeps(t, target.index, propertyId, data, images, videos, keepImages, keepVideos);
          var after := Rewritten(t, target.index, propertyId, data, images, videos, keepImages, keepVideos);
          assert after.properties[target.index] in after.properties;
          Outcome(after, Completed(Reply(200, propertyId)))
  }

  /** The tables after a successful update: the row patched in place, uploads added, then the prunes. */
  function Rewritten(t: Tables, k: nat, propertyId: nat, data: PropertyData, images: seq<Upload>, videos: seq<Upload>,
                     keepImages: KeptIds, keepVideos: KeptIds): Tables
    requires k < |t.properties|
  {
    t.(properties := t.properties[k := Row(propertyId, data)],
       images := PruneImages(AddUpdateImages(t.images, propertyId, images, |images|), propertyId, keepImages),
       videos := PruneVideos(AddVideos(t.videos, propertyId, videos, |videos|), propertyId, keepVideos))
  }

  /** What the writes of an update keep: other properties' media, everything when no list is sent, only listed ids otherwise. */
  lemma RewrittenKeeps(t: Tables, k: nat, propertyId: nat, data: PropertyData, images: seq<Upload>, videos: seq<Upload>,
                       keepImages: KeptIds, keepVideos: KeptIds)
    requires k < |t.properties|
    ensures var after := Rewritten(t, k, propertyId, data, images, videos, keepImages, keepVideos);
      && (forall x :: x in t.images && x.data.propertyId != propertyId ==> x in after.images)
      && (forall x :: x in t.videos && x.data.propertyId != propertyId ==> x in after.videos)
      && (keepImages.NotSent? ==> forall x :: x in t.images ==> x in after.images)
      && (keepVideos.NotSent? ==> forall x :: x in t.videos ==> x in after.videos)
      && (keepImages.Ids? ==> forall x :: x in after.images && x.data.propertyId == propertyId ==> x.id in keepImages.ids)
      && (keepVideos.Ids? ==> forall x :: x in after.videos && x.data.propertyId == propertyId ==> x.id in keepVideos.ids)
      && (keepImages.Ids? ==> forall x :: x in t.images && x.id in keepImages.ids ==> x in after.images)
      && (keepVideos.Ids? ==> forall x :: x in t.videos && x.id in keepVideos.ids ==> x in after.videos)
  {
    var added := AddUpdateImages(t.images, propertyId, images, |images|);
    var addedVideos := AddVideos(t.videos, propertyId, videos, |videos|);
    assert forall x :: x in t.images ==> x in added by {
      assert forall i :: 0 <= i < |t.images| ==> added[i] == t.images[i];
    }
    assert forall x :: x in t.videos ==> x in addedVideos by {
      assert forall i :: 0 <= i < |t.videos| ==> addedVideos[i] == t.videos[i];
    }
  }

  /**
   * The uploads of an update that also lists the images to keep are
   * deleted by the prune that follows them, since a client can only list
   * ids that existed before the request: the property ends up with none of
   * its new images.
   */
  lemma UpdateDropsUnlistedUploads(t: Tables, identity: nat, propertyId: nat, form: map<string, string>,
                                   images: seq<Upload>, videos: seq<Upload>, ids: seq<int>, keepVideos: KeptIds)
    requires forall i :: i in ids ==> i < NextId(t.images)
    requires UpdateSpec(t, identity, propertyId, form, images, videos, Ids(ids), keepVideos).run.Completed?
    ensures forall x :: (x in UpdateSpec(t, identity, propertyId, form, images, videos, Ids(ids), keepVideos).tables.images &&
      x.data.propertyId == propertyId) ==> x in t.images
  {
    var o := UpdateSpec(t, identity, propertyId, form, images, videos, Ids(ids), keepVideos);
    if Locate(t, identity, propertyId).Reply? {
      var added := AddUpdateImages(t.images, propertyId, images, |images|);
      UpdateImagesAreFresh(t.images, propertyId, images, |images|);
      assert o.tables.images == PruneImages(added, propertyId, Ids(ids));
      forall x | x in o.tables.images && x.data.propertyId == propertyId
        ensures x in t.images
      {
        var k :| 0 <= k < |added| && added[k] == x;
        assert k < |t.images|;
        assert added[..|t.images|][k] == x;
      }
    }
  }

  /** Updating a property keeps every table in id order and the contact columns unique. */
  lemma UpdateKeepsWellFormed(t: Tables, identity: nat, propertyId: nat, form: map<string, string>,
                              images: seq<Upload>, videos: seq<Upload>, keepImages: KeptIds, keepVideos: KeptIds)
    requires WellFormed(t)
    ensures WellFormed(UpdateSpec(t, identity, propertyId, form, images, videos, keepImages, keepVideos).tables)
  {
    var o := UpdateSpec(t, identity, propertyId, form, images, videos, keepImages, keepVideos);
    if o.run.Completed? && o.run.answer.Reply? {
      var target := Locate(t, identity, propertyId).value;
      assert forall i :: 0 <= i < |t.properties| ==> o.tables.properties[i].id == t.properties[i].id;
      var added := AddUpdateImages(t.images, propertyId, images, |images|);
      UpdateImagesKeepOrder(t.images, propertyId, images, |images|);
      var addedVideos := AddVideos(t.videos, propertyId, videos, |videos|);
      assert o.tables.images == PruneImages(added, propertyId, keepImages);
      assert o.tables.videos == PruneVideos(addedVideos, propertyId, keepVideos);
      if keepImages.Ids? {
        FilterKeepsIncreasing(added, (x: Row<ImageData>) => x.data.propertyId != propertyId || x.id in keepImages.ids);
      }
      if keepVideos.Ids? {
        FilterKeepsIncreasing(addedVideos, (x: Row<VideoData>) => x.data.propertyId != propertyId || x.id in keepVideos.ids);
      }
    }
  }

  /**
   * The update endpoint. A malformed integer or an unreadable id list
   * raises before anything is committed, so the checks come first here.
   */
  method Update(db: Database, identity: nat, propertyId: nat, form: map<string, string>,
                images: seq<Upload>, videos: seq<Upload>, keepImages: KeptIds, keepVideos: KeptIds)
    returns (run: HandlerRun<nat>)
    modifies db
    ensures db.State() == UpdateSpec(old(db.State()), identity, propertyId, form, images, videos, keepImages, keepVideos).tables
    ensures run == UpdateSpec(old(db.State()), identity, propertyId, form, images, videos, keepImages, keepVideos).run
  {
    var located := Locate(db.State(), identity, propertyId);
    if located.Refusal? {
      return Completed(Refusal(located.status, located.message));
    }
    var patched := Patched(located.value.property.data, form);
    if patched.None? {
      return Crashed(NotAnInteger);
    }
    if keepImages.Unreadable? || keepVideos.Unreadable? {
      return Crashed(NotJson);
    }
    Rewrite(db, located.value.index, propertyId, patched.value, images, videos, keepImages, keepVideos);
    run := Completed(Reply(200, propertyId));
  }

  /** The writes of a successful update, in the order the handler makes them. */
  method Rewrite(db: Database, k: nat, propertyId: nat, data: PropertyData, images: seq<Upload>, videos: seq<Upload>,
                 keepImages: KeptIds, keepVideos: KeptIds)
    requires k < |db.properties|
    modifies db
    ensures db.State() == Rewritten(old(db.State()), k, propertyId, data, images, videos, keepImages, keepVideos)
  {
    db.properties := db.properties[k := Row(propertyId, data)];
    StoreUpdateImages(db, propertyId, images);
    db.images := PruneImages(db.images, propertyId, keepImages);
    StoreVideos(db, propertyId, videos);
    db.videos := PruneVideos(db.videos, propertyId, keepVideos);
  }

  /** The update's image loop: each stored part counts the property's images first. */
  method StoreUpdateImages(db: Database, id: nat, images: seq<Upload>)
    modifies db
    ensures db.State() == old(db.State()).(images := AddUpdateImages(old(db.images), id, images, |images|))
  {
    for i := 0 to |images|
      invariant db.State() == old(db.State()).(images := AddUpdateImages(old(db.images), id, images, i))
    {
      if Truthy(images[i]) {
        var existing := |ImagesOf(db.images, id)|;
        db.images := db.images + [Row(NextId(db.images), ImageData(id, UploadUrl(id, images[i].filename), existing == 0))];
      }
    }
  }

  // ---------------------------------------------------------------------
  // Delete

  const Deleted := "Property deleted successfully"

  function ImagesNotOf(rows: seq<Row<ImageData>>, propertyId: nat): (r: seq<Row<ImageData>>)
    ensures forall x :: x in r <==> x in rows && x.data.propertyId != propertyId
  {
    Filter(rows, (x: Row<ImageData>) => x.data.propertyId != propertyId)
  }

  function VideosNotOf(rows: seq<Row<VideoData>>, propertyId: nat): (r: seq<Row<VideoData>>)
    ensures forall x :: x in r <==> x in rows && x.data.propertyId != propertyId
  {
    Filter(rows, (x: Row<VideoData>) => x.data.propertyId != propertyId)
  }

  function LinksNotOf(rows: seq<Row<PropertyLocationData>>, propertyId: nat): (r: seq<Row<PropertyLocationData>>)
    ensures forall x :: x in r <==> x in rows && x.data.propertyId != propertyId
  {
    Filter(rows, (x: Row<PropertyLocationData>) => x.data.propertyId != propertyId)
  }

  function ViewsNotOf(rows: seq<Row<ViewData>>, propertyId: nat): (r: seq<Row<ViewData>>)
    ensures forall x :: x in r <==> x in rows && x.data.propertyId != propertyId
  {
    Filter(rows, (x: Row<ViewData>) => x.data.propertyId != propertyId)
  }

  function InquiriesNotOf(rows: seq<Row<InquiryData>>, propertyId: nat): (r: seq<Row<InquiryData>>)
    ensures forall x :: x in r <==> x in rows && x.data.propertyId != propertyId
  {
    Filter(rows, (x: Row<InquiryData>) => x.data.propertyId != propertyId)
  }

  /**
   * AgentPropertyDeleteResource.delete: the property's images, videos,
   * location links, visits and inquiries, then the property. Favorites and
   * Location rows are not touched.
   */
  function DeleteSpec(t: Tables, identity: nat, propertyId: nat): (o: Outcome<string>)
    ensures Locate(t, identity, propertyId).Refusal? ==>
      o == Outcome(t, Completed(Refusal(404, Locate(t, identity, propertyId).message)))
    ensures Locate(t, identity, propertyId).Reply? ==>
      var k := Locate(t, identity, propertyId).value.index;
      && o.run == Completed(Reply(200, Deleted))
      && o.tables.properties == t.properties[..k] + t.properties[k + 1..]
      && (forall x :: x in o.tables.images <==> x in t.images && x.data.propertyId != propertyId)
      && (forall x :: x in o.tables.videos <==> x in t.videos && x.data.propertyId != propertyId)
      && (forall x :: x in o.tables.propertyLocations <==> x in t.propertyLocations && x.data.propertyId != propertyId)
      && (forall x :: x in o.tables.views <==> x in t.views && x.data.propertyId != propertyId)
      && (forall x :: x in o.tables.inquiries <==> x in t.inquiries && x.data.propertyId != propertyId)
      && o.tables.(properties := t.properties, images := t.images, videos := t.videos,
                   propertyLocations := t.propertyLocations, views := t.views, inquiries := t.inquiries) == t
  {
    match Locate(t, identity, propertyId)
    case Refusal(status, message) => Outcome(t, Completed(Refusal(status, message)))
    case Reply(_, target) =>
      Outcome(Cascade(t, propertyId, target.index), Completed(Reply(200, Deleted)))
  }

  /** The tables after the bulk deletes of the property's dependants and the delete of its row at `k`. */
  function Cascade(t: Tables, propertyId: nat, k: nat): Tables
    requires k < |t.properties|
  {
    t.(properties := t.properties[..k] + t.properties[k + 1..],
       images := ImagesNotOf(t.images, propertyId),
       videos := VideosNotOf(t.videos, propertyId),
       propertyLocations := LinksNotOf(t.propertyLocations, propertyId),
       views := ViewsNotOf(t.views, propertyId),
       inquiries := InquiriesNotOf(t.inquiries, propertyId))
  }

  /** AgentPropertyDeleteResource.delete on the session: the bulk deletes, then the property row. */
  method Delete(db: Database, identity: nat, propertyId: nat) returns (run: HandlerRun<string>)
    modifies db
    ensures db.State() == DeleteSpec(old(db.State()), identity, propertyId).tables
    ensures run == DeleteSpec(old(db.State()), identity, propertyId).run
  {
    var t := db.State();
    var located := Locate(t, identity, propertyId);
    if located.Refusal? {
      return Completed(Refusal(located.status, located.message));
    }
    var k := located.value.index;
    DeleteDependants(db, propertyId);
    db.properties := t.properties[..k] + t.properties[k + 1..];
    assert db.State() == Cascade(t, propertyId, k);
    run := Completed(Reply(200, Deleted));
  }

  /** The five bulk deletes that precede the delete of the property row. */
  method DeleteDependants(db: Database, propertyId: nat)
    modifies db
    ensures db.images == ImagesNotOf(old(db.images), propertyId)
    ensures db.videos == VideosNotOf(old(db.videos), propertyId)
    ensures db.propertyLocations == LinksNotOf(old(db.propertyLocations), propertyId)
    ensures db.views == ViewsNotOf(old(db.views), propertyId)
    ensures db.inquiries == InquiriesNotOf(old(db.inquiries), propertyId)
    ensures unchanged(db`users, db`agentProfiles, db`userProfiles, db`properties, db`locations, db`favorites, db`payments)
  {
    var images := ImagesNotOf(db.images, propertyId);
    var videos := VideosNotOf(db.videos, propertyId);
    var links := LinksNotOf(db.propertyLocations, propertyId);
    var views := ViewsNotOf(db.views, propertyId);
    var inquiries := InquiriesNotOf(db.inquiries, propertyId);
    db.images, db.videos, db.propertyLocations, db.views, db.inquiries := images, videos, links, views, inquiries;
  }

  /** After a delete nothing that the cascade covers refers to the property, and its owner cannot find it. */
  lemma DeleteLeavesNoTrace(t: Tables, identity: nat, propertyId: nat)
    requires WellFormed(t)
    requires Locate(t, identity, propertyId).Reply?
    ensures WellFormed(DeleteSpec(t, identity, propertyId).tables)
    ensures Get(DeleteSpec(t, identity, propertyId).tables.properties, propertyId).None?
    ensures Locate(DeleteSpec(t, identity, propertyId).tables, identity, propertyId) == Refusal(404, NoProperty)
  {
    var o := DeleteSpec(t, identity, propertyId);
    var k := Locate(t, identity, propertyId).value.index;
    var ps := t.properties;
    FilterKeepsIncreasing(t.images, (x: Row<ImageData>) => x.data.propertyId != propertyId);
    FilterKeepsIncreasing(t.videos, (x: Row<VideoData>) => x.data.propertyId != propertyId);
    FilterKeepsIncreasing(t.propertyLocations, (x: Row<PropertyLocationData>) => x.data.propertyId != propertyId);
    FilterKeepsIncreasing(t.views, (x: Row<ViewData>) => x.data.propertyId != propertyId);
    FilterKeepsIncreasing(t.inquiries, (x: Row<InquiryData>) => x.data.propertyId != propertyId);
    assert o.tables.properties == ps[..k] + ps[k + 1..];
    forall i | 0 <= i < |o.tables.properties| ensures o.tables.properties[i].id != propertyId {
      if i < k {
        assert o.tables.properties[i] == ps[i];
      } else {
        assert o.tables.properties[i] == ps[i + 1];
      }
    }
    forall i, j | 0 <= i < j < |o.tables.properties|
      ensures o.tables.properties[i].id < o.tables.properties[j].id
    {
      var i' := if i < k then i else i + 1;
      var j' := if j < k then j else j + 1;
      assert o.tables.properties[i] == ps[i'] && o.tables.properties[j] == ps[j'];
    }
  }

  /**
   * Favorites outlive the property they point at, and ids are handed out
   * again: when the next property created takes the deleted one's id, every
   * favorite of the deleted property now resolves to the new one.
   */
  lemma FavoritesFollowAReusedId(t: Tables, identity: nat, propertyId: nat, creator: nat,
                                 form: map<string, string>, images: seq<Upload>, videos: seq<Upload>, now: int,
                                 fav: Row<FavoriteData>)
    requires WellFormed(t)
    requires Locate(t, identity, propertyId).Reply?
    requires fav in t.favorites && fav.data.propertyId == propertyId
    requires NextId(DeleteSpec(t, identity, propertyId).tables.properties) == propertyId
    requires CreateSpec(DeleteSpec(t, identity, propertyId).tables, creator, form, images, videos, now).run ==
      Completed(Reply(201, Created(propertyId)))
    ensures fav in CreateSpec(DeleteSpec(t, identity, propertyId).tables, creator, form, images, videos, now).tables.favorites
    ensures Get(CreateSpec(DeleteSpec(t, identity, propertyId).tables, creator, form, images, videos, now).tables.properties, fav.data.propertyId)
      == Some(Row(propertyId, NewProperty(form, AgentProfileOf(t, creator).value.id, now).value))
  {
    var after := DeleteSpec(t, identity, propertyId).tables;
    var o := CreateSpec(after, creator, form, images, videos, now);
    var ps := o.tables.properties;
    var row := ps[|after.properties|];
    assert ps == after.properties + [row];
    GetAppendedAtNextId(after.properties, row);
  }
}

=== FILE: agent_queries.dfy ===
/**
 * The read-only side of resources/agent.py: resolving the caller's agent
 * profile, the owned-property lookup every item endpoint performs, the
 * scoped listings, the property detail with its URL de-duplication, the
 * stats and the "time ago" text.
 */
module AgentQueries {
  import opened Records
  import opened Text
  import opened Gate
  import opened UrlDedup

  /** `AgentProfile.query.filter_by(user_id=identity).first()`. */
  function AgentProfileOf(t: Tables, identity: nat): (p: Option<Row<AgentProfileData>>)
    ensures p.Some? ==> p.value in t.agentProfiles && p.value.data.userId == identity
    ensures p.Some? ==> exists k :: (0 <= k < |t.agentProfiles| && t.agentProfiles[k] == p.value &&
                                     forall j :: 0 <= j < k ==> t.agentProfiles[j].data.userId != identity)
    ensures p.None? ==> forall a :: a in t.agentProfiles ==> a.data.userId != identity
  {
    First(t.agentProfiles, (a: Row<AgentProfileData>) => a.data.userId == identity)
  }

  /** The properties whose agent_id is this profile, in table order. */
  function OwnedBy(properties: seq<Row<PropertyData>>, profileId: nat): (r: seq<Row<PropertyData>>)
    ensures forall p :: p in r <==> p in properties && p.data.agentId == profileId
  {
    Filter(properties, (p: Row<PropertyData>) => p.data.agentId == profileId)
  }

  /** Where `Property.query.filter_by(id=propertyId, agent_id=profileId).first()` is in the table. */
  function OwnedIndex(properties: seq<Row<PropertyData>>, propertyId: nat, profileId: nat): (k: Option<nat>)
    ensures k.Some? ==> k.value < |properties|
    ensures k.Some? ==> properties[k.value].id == propertyId && properties[k.value].data.agentId == profileId
    ensures k.None? ==> forall p :: p in properties && p.id == propertyId ==> p.data.agentId != profileId
  {
    FirstIndex(properties, (p: Row<PropertyData>) => p.id == propertyId && p.data.agentId == profileId)
  }

  /** The caller's profile and the property it owns, with the property's place in the table. */
  datatype Target = Target(profile: Row<AgentProfileData>, index: nat, property: Row<PropertyData>)

  const NoAgentProfile := "Agent profile not found"
  const NoProperty := "Property not found"

  /**
   * The two lookups of the detail, update and delete endpoints: the caller's
   * profile, then the property by the pair (id, agent_id).
   */
  function Locate(t: Tables, identity: nat, propertyId: nat): (r: Answer<Target>)
    ensures AgentProfileOf(t, identity).None? ==> r == Refusal(404, NoAgentProfile)
    ensures AgentProfileOf(t, identity).Some? && r.Refusal? ==> r == Refusal(404, NoProperty)
    ensures r.Reply? <==>
      AgentProfileOf(t, identity).Some? &&
      exists p :: p in t.properties && p.id == propertyId && p.data.agentId == AgentProfileOf(t, identity).value.id
    ensures r.Reply? ==>
      && r.value.profile == AgentProfileOf(t, identity).value
      && r.value.index < |t.properties|
      && r.value.property == t.properties[r.value.index]
      && r.value.property.id == propertyId
      && r.value.property.data.agentId == r.value.profile.id
  {
    match AgentProfileOf(t, identity)
    case None => Refusal(404, NoAgentProfile)
    case Some(profile) =>
      match OwnedIndex(t.properties, propertyId, profile.id)
      case None => Refusal(404, NoProperty)
      case Some(k) => Reply(200, Target(profile, k, t.properties[k]))
  }

  /**
   * Another agent's property gets the very answer a nonexistent id gets:
   * ownership failures are indistinguishable from absence.
   */
  lemma ForeignPropertyLooksMissing(t: Tables, identity: nat, propertyId: nat, missingId: nat)
    requires Increasing(t.properties)
    requires AgentProfileOf(t, identity).Some?
    requires exists p :: p in t.properties && p.id == propertyId && p.data.agentId != AgentProfileOf(t, identity).value.id
    requires forall p :: p in t.properties ==> p.id != missingId
    ensures Locate(t, identity, propertyId) == Locate(t, identity, missingId) == Refusal(404, NoProperty)
  {
    var me := AgentProfileOf(t, identity).value.id;
    var p :| p in t.properties && p.id == propertyId && p.data.agentId != me;
    forall q | q in t.properties && q.id == propertyId
      ensures q.data.agentId != me
    {
      var i :| 0 <= i < |t.properties| && t.properties[i] == p;
      var j :| 0 <= j < |t.properties| && t.properties[j] == q;
      assert i == j;
    }
  }

  // ---------------------------------------------------------------------
  // Listings

  /** `request.args.get('limit', 5, type=int)`: 5 when absent or not an integer. */
  function LimitArg(arg: Option<string>): (n: int)
    ensures arg.None? ==> n == 5
    ensures arg.Some? && ParseInt(arg.value).Some? ==> n == ParseInt(arg.value).value
    ensures arg.Some? && ParseInt(arg.value).None? ==> n == 5
  {
    match arg
    case None => 5
    case Some(s) =>
      match ParseInt(s)
      case None => 5
      case Some(n) => n
  }

  function ImagesOf(images: seq<Row<ImageData>>, propertyId: nat): (r: seq<Row<ImageData>>)
    ensures forall i :: i in r <==> i in images && i.data.propertyId == propertyId
  {
    Filter(images, (i: Row<ImageData>) => i.data.propertyId == propertyId)
  }

  function VideosOf(videos: seq<Row<VideoData>>, propertyId: nat): (r: seq<Row<VideoData>>)
    ensures forall v :: v in r <==> v in videos && v.data.propertyId == propertyId
  {
    Filter(videos, (v: Row<VideoData>) => v.data.propertyId == propertyId)
  }

  function ViewsOf(views: seq<Row<ViewData>>, propertyId: nat): (r: seq<Row<ViewData>>)
    ensures forall v :: v in r <==> v in views && v.data.propertyId == propertyId
  {
    Filter(views, (v: Row<ViewData>) => v.data.propertyId == propertyId)
  }

  /** The URL of the property's first primary image, if any. */
  function PrimaryImageUrl(images: seq<Row<ImageData>>, propertyId: nat): (u: Option<string>)
    ensures u.Some? ==> exists k :: (0 <= k < |images| && images[k].data.propertyId == propertyId &&
                                     images[k].data.isPrimary && images[k].data.url == u.value &&
                                     forall j :: 0 <= j < k ==> !(images[j].data.propertyId == propertyId && images[j].data.isPrimary))
    ensures u.None? ==> forall i :: i in images && i.data.propertyId == propertyId ==> !i.data.isPrimary
  {
    match First(images, (i: Row<ImageData>) => i.data.propertyId == propertyId && i.data.isPrimary)
    case None => None
    case Some(i) => Some(i.data.url)
  }

  datatype PropertySummary = PropertySummary(
    id: nat, title: string, price: int, currency: string, listingType: string,
    status: string, bedrooms: Option<int>, bathrooms: Option<int>, views: nat,
    image: Option<string>, createdAt: int)

  function Summarize(t: Tables, p: Row<PropertyData>): PropertySummary
  {
    PropertySummary(p.id, p.data.title, p.data.price, p.data.currency, p.data.listingType,
      p.data.status, p.data.bedrooms, p.data.bathrooms, |ViewsOf(t.views, p.id)|,
      PrimaryImageUrl(t.images, p.id), p.data.createdAt)
  }

  /** AgentPropertiesResource.get: the caller's newest properties. */
  function RecentProperties(t: Tables, identity: nat, limit: int): (r: Answer<seq<PropertySummary>>)
    ensures r.Reply? && r.status == 200
    ensures AgentProfileOf(t, identity).None? ==> r.value == []
    ensures forall s :: s in r.value ==>
      exists p :: p in t.properties && p.id == s.id && p.data.agentId == AgentProfileOf(t, identity).value.id
    ensures 0 <= limit ==> |r.value| <= limit
    ensures AgentProfileOf(t, identity).Some? ==>
      |r.value| == LimitedCount(|OwnedBy(t.properties, AgentProfileOf(t, identity).value.id)|, limit)
  {
    match AgentProfileOf(t, identity)
    case None => Reply(200, [])
    case Some(profile) =>
      var owned := OwnedBy(t.properties, profile.id);
      var newest := Newest(owned, limit);
      assert forall i :: 0 <= i < |newest| ==> newest[i] in owned;
      Reply(200, SummarizeAll(t, newest))
  }

  /** The listing is newest first: its i-th entry summarises the i-th owned property from the end. */
  lemma RecentPropertiesNewestFirst(t: Tables, identity: nat, limit: int)
    requires AgentProfileOf(t, identity).Some?
    ensures var owned := OwnedBy(t.properties, AgentProfileOf(t, identity).value.id);
      var r := RecentProperties(t, identity, limit).value;
      && |r| == LimitedCount(|owned|, limit)
      && forall i :: 0 <= i < |r| ==> r[i] == Summarize(t, owned[|owned| - 1 - i])
  {
  }

  function SummarizeAll(t: Tables, rows: seq<Row<PropertyData>>): (r: seq<PropertySummary>)
    ensures |r| == |rows|
    ensures forall i :: 0 <= i < |r| ==> r[i] == Summarize(t, rows[i]) && r[i].id == rows[i].id
  {
    seq(|rows|, i requires 0 <= i < |rows| => Summarize(t, rows[i]))
  }

  datatype InquirySummary = InquirySummary(
    id: nat, userId: nat, name: string, propertyId: nat, property: string,
    message: string, status: string, time: string, createdAt: Option<int>)

  /** "N day(s) ago" / "N hour(s) ago". */
  function Ago(n: nat, unit: string): string
  {
    NatToString(n) + " " + unit + (if n > 1 then "s" else "") + " ago"
  }

  /**
   * The "time ago" text of an inquiry: `now - created_at` as a timedelta,
   * whose `days` is the floor of the difference in days and whose `seconds`
   * is the non-negative remainder; times are whole seconds.
   */
  function TimeAgo(createdAt: Option<int>, now: int): (s: string)
    ensures createdAt.None? ==> s == ""
    ensures createdAt.Some? && now - createdAt.value >= 86400 ==>
      s == Ago((now - createdAt.value) / 86400, "day")
    ensures createdAt.Some? && 3600 <= now - createdAt.value < 86400 ==>
      s == Ago((now - createdAt.value) / 3600, "hour")
    ensures createdAt.Some? && 0 <= now - createdAt.value < 3600 ==> s == "Just now"
  {
    match createdAt
    case None => ""
    case Some(c) =>
      var diff := now - c;
      var days := diff / 86400;
      var seconds := diff % 86400;
      if days > 0 then Ago(days, "day")
      else if seconds / 3600 > 0 then Ago(seconds / 3600, "hour")
      else "Just now"
  }

  /** A creation time one second in the future reads as 23 hours old: the timedelta has days == -1. */
  lemma FutureCreationReadsHoursAgo(now: int)
    ensures TimeAgo(Some(now + 1), now) == "23 hours ago"
  {
    assert (-1) / 86400 == -1 && (-1) % 86400 == 86399;
    assert NatToString(23) == "23" by {
      assert NatToString(2) == "2";
    }
  }

  function SenderName(t: Tables, userId: nat): string
  {
    match Get(t.users, userId)
    case None => "Unknown"
    case Some(u) => u.data.firstName + " " + u.data.lastName
  }

  function PropertyTitle(t: Tables, propertyId: nat): string
  {
    match Get(t.properties, propertyId)
    case None => "Unknown Property"
    case Some(p) => p.data.title
  }

  /** The inquiries addressed to this agent profile, in table order. */
  function InquiriesTo(inquiries: seq<Row<InquiryData>>, profileId: nat): (r: seq<Row<InquiryData>>)
    ensures forall q :: q in r <==> q in inquiries && q.data.agentId == profileId
  {
    Filter(inquiries, (q: Row<InquiryData>) => q.data.agentId == profileId)
  }

  function SummarizeInquiry(t: Tables, q: Row<InquiryData>, now: int): InquirySummary
  {
    InquirySummary(q.id, q.data.userId, SenderName(t, q.data.userId), q.data.propertyId,
      PropertyTitle(t, q.data.propertyId), q.data.message, q.data.status,
      TimeAgo(q.data.createdAt, now), q.data.createdAt)
  }

  /** AgentInquiriesResource.get: the newest inquiries addressed to the caller's profile. */
  function RecentInquiries(t: Tables, identity: nat, limit: int, now: int): (r: Answer<seq<InquirySummary>>)
    ensures r.Reply? && r.status == 200
    ensures AgentProfileOf(t, identity).None? ==> r.value == []
    ensures forall s :: s in r.value ==>
      exists q :: q in t.inquiries && q.id == s.id && q.data.agentId == AgentProfileOf(t, identity).value.id
    ensures 0 <= limit ==> |r.value| <= limit
    ensures AgentProfileOf(t, identity).Some? ==>
      |r.value| == LimitedCount(|InquiriesTo(t.inquiries, AgentProfileOf(t, identity).value.id)|, limit)
  {
    match AgentProfileOf(t, identity)
    case None => Reply(200, [])
    case Some(profile) =>
      var to := InquiriesTo(t.inquiries, profile.id);
      var newest := Newest(to, limit);
      assert forall i :: 0 <= i < |newest| ==> newest[i] in to;
      Reply(200, SummarizeInquiries(t, newest, now))
  }

  /** The listing is newest first: its i-th entry summarises the i-th inquiry from the end of the caller's. */
  lemma RecentInquiriesNewestFirst(t: Tables, identity: nat, limit: int, now: int)
    requires AgentProfileOf(t, identity).Some?
    ensures var to := InquiriesTo(t.inquiries, AgentProfileOf(t, identity).value.id);
      var r := RecentInquiries(t, identity, limit, now).value;
      && |r| == LimitedCount(|to|, limit)
      && forall i :: 0 <= i < |r| ==> r[i] == SummarizeInquiry(t, to[|to| - 1 - i], now)
  {
  }

  function SummarizeInquiries(t: Tables, rows: seq<Row<InquiryData>>, now: int): (r: seq<InquirySummary>)
    ensures |r| == |rows|
    ensures forall i :: 0 <= i < |r| ==> r[i] == SummarizeInquiry(t, rows[i], now) && r[i].id == rows[i].id
  {
    seq(|rows|, i requires 0 <= i < |rows| => SummarizeInquiry(t, rows[i], now))
  }

  // ---------------------------------------------------------------------
  // Detail

  function ImageUrl(i: Row<ImageData>): string
  {
    i.data.url
  }

  function VideoUrl(v: Row<VideoData>): string
  {
    v.data.url
  }

  /** The display order of images: primary ones first, then by id. */
  predicate DisplayedBefore(a: Row<ImageData>, b: Row<ImageData>)
  {
    (a.data.isPrimary && !b.data.isPrimary) || (a.data.isPrimary == b.data.isPrimary && a.id < b.id)
  }

  predicate InDisplayOrder(xs: seq<Row<ImageData>>)
  {
    forall i, j :: 0 <= i < j < |xs| ==> DisplayedBefore(xs[i], xs[j])
  }

  function Primaries(rows: seq<Row<ImageData>>): seq<Row<ImageData>>
  {
    Filter(rows, (i: Row<ImageData>) => i.data.isPrimary)
  }

  function Secondaries(rows: seq<Row<ImageData>>): seq<Row<ImageData>>
  {
    Filter(rows, (i: Row<ImageData>) => !i.data.isPrimary)
  }

  /** `order_by(PropertyImage.is_primary.desc(), PropertyImage.id)` on rows held in id order. */
  function PrimaryFirst(rows: seq<Row<ImageData>>): seq<Row<ImageData>>
  {
    Primaries(rows) + Secondaries(rows)
  }

  lemma {:induction false} PrimaryFirstIsPermutation(rows: seq<Row<ImageData>>)
    ensures multiset(PrimaryFirst(rows)) == multiset(rows)
    decreases |rows|
  {
    if rows != [] {
      var init, last := rows[..|rows| - 1], rows[|rows| - 1];
      PrimaryFirstIsPermutation(init);
      assert rows == init + [last];
    }
  }

  /** On a table in id order, primary-then-rest is exactly the SQL ordering. */
  lemma PrimaryFirstIsDisplayOrder(rows: seq<Row<ImageData>>)
    requires Increasing(rows)
    ensures InDisplayOrder(PrimaryFirst(rows))
    ensures multiset(PrimaryFirst(rows)) == multiset(rows)
  {
    PrimaryFirstIsPermutation(rows);
    FilterKeepsIncreasing(rows, (i: Row<ImageData>) => i.data.isPrimary);
    FilterKeepsIncreasing(rows, (i: Row<ImageData>) => !i.data.isPrimary);
    var ps, ss := Primaries(rows), Secondaries(rows);
    var out := ps + ss;
    forall i, j | 0 <= i < j < |out| ensures DisplayedBefore(out[i], out[j]) {
      if j < |ps| {
        assert out[i] == ps[i] && out[j] == ps[j];
        assert ps[i] in ps && ps[j] in ps;
        assert ps[i].id < ps[j].id;
      } else if i >= |ps| {
        assert out[i] == ss[i - |ps|] && out[j] == ss[j - |ps|];
        assert ss[i - |ps|] in ss && ss[j - |ps|] in ss;
        assert ss[i - |ps|].id < ss[j - |ps|].id;
      } else {
        assert out[i] == ps[i] && ps[i] in ps;
        assert out[j] == ss[j - |ps|] && ss[j - |ps|] in ss;
      }
    }
  }

  lemma {:induction false} FirstOccurrencesAreInput<T>(xs: seq<T>, url: T -> string, n: nat)
    requires n <= |xs|
    ensures forall y :: y in FirstOccurrences(xs, url, n) ==> exists k :: 0 <= k < n && xs[k] == y
    decreases n
  {
    if n > 0 {
      FirstOccurrencesAreInput(xs, url, n - 1);
    }
  }

  /** Keeping first occurrences keeps the input's display order. */
  lemma {:induction false} FirstOccurrencesKeepOrder(xs: seq<Row<ImageData>>, n: nat)
    requires n <= |xs| && InDisplayOrder(xs)
    ensures InDisplayOrder(FirstOccurrences(xs, ImageUrl, n))
    decreases n
  {
    if n > 0 {
      FirstOccurrencesKeepOrder(xs, n - 1);
      FirstOccurrencesAreInput(xs, ImageUrl, n - 1);
      var prev := FirstOccurrences(xs, ImageUrl, n - 1);
      forall i | 0 <= i < |prev| ensures DisplayedBefore(prev[i], xs[n - 1]) {
        assert prev[i] in prev;
        var k :| 0 <= k < n - 1 && xs[k] == prev[i];
      }
    }
  }

  datatype PropertyDetail = PropertyDetail(
    property: Row<PropertyData>, images: seq<Row<ImageData>>, videos: seq<Row<VideoData>>,
    views: nat, location: Option<Row<LocationData>>)

  /** The property's location: its first location link, then the linked location if it exists. */
  function LocationOf(t: Tables, propertyId: nat): Option<Row<LocationData>>
  {
    match First(t.propertyLocations, (l: Row<PropertyLocationData>) => l.data.propertyId == propertyId)
    case None => None
    case Some(link) => Get(t.locations, link.data.locationId)
  }

  /**
   * The images the detail shows: the property's images in display order,
   * keeping the first image of each URL.
   */
  function DisplayedImages(images: seq<Row<ImageData>>, propertyId: nat): seq<Row<ImageData>>
  {
    var ordered := PrimaryFirst(ImagesOf(images, propertyId));
    FirstOccurrences(ordered, ImageUrl, |ordered|)
  }

  /** The videos the detail shows: the first video of each URL, in id order. */
  function DisplayedVideos(videos: seq<Row<VideoData>>, propertyId: nat): seq<Row<VideoData>>
  {
    var own := VideosOf(videos, propertyId);
    FirstOccurrences(own, VideoUrl, |own|)
  }

  /** Every rule the de-duplication relies on, proved once of the reference definition. */
  lemma {:induction false} FirstOccurrencesFacts<T>(xs: seq<T>, url: T -> string)
    ensures NoDuplicateUrls(FirstOccurrences(xs, url, |xs|), url)
    ensures UrlsOf(FirstOccurrences(xs, url, |xs|), url) == UrlsOf(xs, url)
  {
    assert xs[..|xs|] == xs;
    UniqueIsFirstOccurrences(xs, url, |xs|);
    UniqueHasNoDuplicates(xs, url);
    UniqueCoversEveryUrl(xs, url);
  }

  /**
   * The shown images are in display order, carry no URL twice, and carry
   * every URL of the property's images.
   */
  lemma DisplayedImagesFacts(images: seq<Row<ImageData>>, propertyId: nat)
    requires Increasing(images)
    ensures InDisplayOrder(DisplayedImages(images, propertyId))
    ensures NoDuplicateUrls(DisplayedImages(images, propertyId), ImageUrl)
    ensures UrlsOf(DisplayedImages(images, propertyId), ImageUrl) == UrlsOf(ImagesOf(images, propertyId), ImageUrl)
  {
    var own := ImagesOf(images, propertyId);
    var ordered := PrimaryFirst(own);
    FilterKeepsIncreasing(images, (i: Row<ImageData>) => i.data.propertyId == propertyId);
    PrimaryFirstIsDisplayOrder(own);
    FirstOccurrencesKeepOrder(ordered, |ordered|);
    FirstOccurrencesFacts(ordered, ImageUrl);
    UrlsOfSameRows(ordered, own, ImageUrl);
  }

  lemma DisplayedVideosFacts(videos: seq<Row<VideoData>>, propertyId: nat)
    ensures NoDuplicateUrls(DisplayedVideos(videos, propertyId), VideoUrl)
    ensures UrlsOf(DisplayedVideos(videos, propertyId), VideoUrl) == UrlsOf(VideosOf(videos, propertyId), VideoUrl)
  {
    FirstOccurrencesFacts(VideosOf(videos, propertyId), VideoUrl);
  }

  /**
   * AgentPropertyDetailResource.get: the lookups, then the two
   * de-duplication loops over the images (in display order) and the videos.
   */
  method Detail(t: Tables, identity: nat, propertyId: nat) returns (r: Answer<PropertyDetail>)
    ensures Locate(t, identity, propertyId).Refusal? ==>
      r == Refusal(404, Locate(t, identity, propertyId).message)
    ensures r.Reply? <==> Locate(t, identity, propertyId).Reply?
    ensures r.Reply? ==> r == Reply(200, PropertyDetail(
      Locate(t, identity, propertyId).value.property,
      DisplayedImages(t.images, propertyId),
      DisplayedVideos(t.videos, propertyId),
      |ViewsOf(t.views, propertyId)|,
      LocationOf(t, propertyId)))
  {
    var located := Locate(t, identity, propertyId);
    if located.Refusal? {
      return Refusal(located.status, located.message);
    }
    var property := located.value.property;
    var images := Dedup(PrimaryFirst(ImagesOf(t.images, property.id)), ImageUrl);
    var videos := Dedup(VideosOf(t.videos, property.id), VideoUrl);
    r := Reply(200, PropertyDetail(property, images, videos, |ViewsOf(t.views, property.id)|,
      LocationOf(t, property.id)));
  }

  // ---------------------------------------------------------------------
  // Stats

  datatype AgentStats = AgentStats(listings: nat, inquiries: nat, viewings: nat, revenue: int)

  /** The views of any property this profile owns. */
  function ViewsOfOwned(t: Tables, profileId: nat): seq<Row<ViewData>>
  {
    var ids := set p | p in OwnedBy(t.properties, profileId) :: p.id;
    Filter(t.views, (v: Row<ViewData>) => v.data.propertyId in ids)
  }

  /** This month's completed payments to this profile. */
  function MonthlyPayments(t: Tables, profileId: nat, monthStart: int): seq<Row<PaymentData>>
  {
    Filter(t.payments, (p: Row<PaymentData>) =>
      p.data.agentId == profileId && p.data.status == "complete" && p.data.createdAt >= monthStart)
  }

  /**
   * AgentStatsResource.get. The inquiry count dereferences the profile even
   * when there is none, so without a profile the handler raises.
   */
  function AgentStatsRun(t: Tables, identity: nat, monthStart: int): (r: HandlerRun<AgentStats>)
    ensures r.Crashed? <==> AgentProfileOf(t, identity).None?
    ensures r.Completed? ==> r.answer.Reply? && r.answer.status == 200
    ensures r.Completed? ==>
      var id := AgentProfileOf(t, identity).value.id;
      && r.answer.value.listings == |OwnedBy(t.properties, id)|
      && r.answer.value.inquiries == |InquiriesTo(t.inquiries, id)|
      && r.answer.value.viewings == |ViewsOfOwned(t, id)|
      && r.answer.value.revenue == TotalAmount(MonthlyPayments(t, id, monthStart))
  {
    match AgentProfileOf(t, identity)
    case None => Crashed("'NoneType' object has no attribute 'id'")
    case Some(profile) =>
      Completed(Reply(200, AgentStats(
        |OwnedBy(t.properties, profile.id)|,
        |InquiriesTo(t.inquiries, profile.id)|,
        |ViewsOfOwned(t, profile.id)|,
        TotalAmount(MonthlyPayments(t, profile.id, monthStart)))))
  }

  /** An admitted agent without a profile is told its token is invalid. */
  lemma StatsWithoutProfileReadAsInvalidToken(t: Tables, v: Verification, monthStart: int)
    requires Decide(Agent, v).Admit?
    requires AgentProfileOf(t, Decide(Agent, v).identity).None?
    ensures Guarded(Agent, v, AgentStatsRun(t, Decide(Agent, v).identity, monthStart)) == Refusal(401, InvalidToken)
  {
  }
}

=== FILE: auth_resources.dfy ===
/**
 * The ungated entry points of resources/auth.py: signup stores a new
 * identity with the role the client asks for, login checks a password, and
 * both hand out a token whose subject is the user id and whose "role" claim
 * is the stored role. Password hashing and checking are parameters.
 */
module AuthResources {
  import opened Records
  import opened Gate
  import opened Store
  import opened AgentEdits

  /** A signed access token: `identity=user id`, `additional_claims={'role': role}`. */
  datatype Token = Token(subject: nat, role: string)

  /** What the gates read back from a token that verifies. */
  function TokenClaims(token: Token): Verification
  {
    Verified(Some(Claims(token.subject, Some(token.role))))
  }

  /** A user as returned to the client: every column but the password hash. */
  datatype UserView = UserView(id: nat, firstName: string, lastName: string, phone: string, email: string,
                               role: string, isVerified: bool, createdAt: int)

  function View(u: Row<UserData>): UserView
  {
    UserView(u.id, u.data.firstName, u.data.lastName, u.data.phone, u.data.email,
             u.data.role, u.data.isVerified, u.data.createdAt)
  }

  /** The returned user does not depend on the stored hash. */
  lemma ViewOmitsPassword(u: Row<UserData>, otherHash: string)
    ensures View(u.(data := u.data.(passwordHash := otherHash))) == View(u)
  {
  }

  /** The body of a successful signup or login. */
  datatype Session = Session(user: UserView, token: Token)

  // ---------------------------------------------------------------------
  // Request parsing

  /** A RequestParser argument with `required=True`: its name and its help text. */
  datatype Argument = Argument(name: string, help: string)

  const SignupArguments: seq<Argument> := [
    Argument("first_name", "First name is required"),
    Argument("last_name", "Last name is required"),
    Argument("phone", "Phone number is required"),
    Argument("email", "Email is required"),
    Argument("password", "Password is required"),
    Argument("role", "Role is required")]

  const LoginArguments: seq<Argument> := [
    Argument("email", "Email is required"),
    Argument("password", "Password is required")]

  /** `parse_args()`: the help text of the first required argument that is absent, if any. */
  function MissingArgument(form: map<string, string>, args: seq<Argument>): (r: Option<string>)
    ensures r.None? <==> forall i :: 0 <= i < |args| ==> args[i].name in form
    ensures r.Some? ==> exists i :: (0 <= i < |args| && args[i].name !in form && args[i].help == r.value &&
                                     forall j :: 0 <= j < i ==> args[j].name in form)
  {
    if args == [] then None
    else if args[0].name !in form then Some(args[0].help)
    else
      var rest := MissingArgument(form, args[1..]);
      if rest.Some? then
        var i :| 0 <= i < |args[1..]| && args[1..][i].name !in form && args[1..][i].help == rest.value &&
          forall j :: 0 <= j < i ==> args[1..][j].name in form;
        assert args[i + 1].name !in form && forall j :: 0 <= j < i + 1 ==> args[j].name in form;
        rest
      else
        assert forall i :: 1 <= i < |args| ==> args[1..][i - 1] == args[i];
        rest
  }

  // ---------------------------------------------------------------------
  // Signup

  const EmailTaken := "Email already taken"
  const PhoneTaken := "Phone number already taken"
  const CannotCreate := "Unable to create account"

  /** `User.query.filter_by(email=email)`. */
  function UsersWithEmail(users: seq<Row<UserData>>, email: string): (r: seq<Row<UserData>>)
    ensures forall u :: u in r <==> u in users && u.data.email == email
  {
    Filter(users, (u: Row<UserData>) => u.data.email == email)
  }

  /** `User.query.filter_by(phone=phone)`. */
  function UsersWithPhone(users: seq<Row<UserData>>, phone: string): (r: seq<Row<UserData>>)
    ensures forall u :: u in r <==> u in users && u.data.phone == phone
  {
    Filter(users, (u: Row<UserData>) => u.data.phone == phone)
  }

  /** The row a successful signup adds: the password hashed, not verified, the role as supplied. */
  function NewUser(users: seq<Row<UserData>>, form: map<string, string>, hash: string -> string, now: int): Row<UserData>
    requires forall i :: 0 <= i < |SignupArguments| ==> SignupArguments[i].name in form
  {
    assert SignupArguments[0].name == "first_name" && SignupArguments[1].name == "last_name";
    assert SignupArguments[2].name == "phone" && SignupArguments[3].name == "email";
    assert SignupArguments[4].name == "password" && SignupArguments[5].name == "role";
    Row(NextId(users), UserData(form["first_name"], form["last_name"], form["phone"], form["email"],
                                hash(form["password"]), form["role"], false, now))
  }

  /**
   * Signup.post. `committed` is whether the insert commits (it is false when
   * the database refuses the row); `one_or_none()` raises when more than one
   * row matches.
   */
  function SignupSpec(t: Tables, form: map<string, string>, hash: string -> string, committed: bool, now: int)
    : (o: Outcome<Session>)
    ensures MissingArgument(form, SignupArguments).None? ==>
      "first_name" in form && "last_name" in form && "phone" in form && "email" in form &&
      "password" in form && "role" in form
    ensures MissingArgument(form, SignupArguments).Some? ==>
      o == Outcome(t, Completed(Refusal(400, MissingArgument(form, SignupArguments).value)))
    ensures o.run.Crashed? ==> o.tables == t
    ensures (o.run.Completed? && o.run.answer.Reply?) <==>
      && MissingArgument(form, SignupArguments).None?
      && (forall u :: u in t.users ==> u.data.email != form["email"] && u.data.phone != form["phone"])
      && committed
    ensures o.run.Completed? && o.run.answer.Refusal? ==> o.tables == t && o.run.answer.status == 400
    ensures (MissingArgument(form, SignupArguments).None? && |UsersWithEmail(t.users, form["email"])| == 1) ==>
      o.run == Completed(Refusal(400, EmailTaken))
    ensures (MissingArgument(form, SignupArguments).None? && |UsersWithEmail(t.users, form["email"])| == 0 &&
             |UsersWithPhone(t.users, form["phone"])| == 1) ==>
      o.run == Completed(Refusal(400, PhoneTaken))
    ensures o.run.Completed? && o.run.answer.Reply? ==>
      var u := NewUser(t.users, form, hash, now);
      && o.tables == t.(users := t.users + [u])
      && u.data.email == form["email"] && u.data.phone == form["phone"] && u.data.role == form["role"]
      && u.data.passwordHash == hash(form["password"]) && !u.data.isVerified
      && o.run.answer == Reply(201, Session(View(u), Token(u.id, u.data.role)))
  {
    match MissingArgument(form, SignupArguments)
    case Some(help) => Outcome(t, Completed(Refusal(400, help)))
    case None =>
      assert SignupArguments[0].name == "first_name" && SignupArguments[1].name == "last_name";
      assert SignupArguments[2].name == "phone" && SignupArguments[3].name == "email";
      assert SignupArguments[4].name == "password" && SignupArguments[5].name == "role";
      var byEmail := UsersWithEmail(t.users, form["email"]);
      var byPhone := UsersWithPhone(t.users, form["phone"]);
      if |byEmail| > 1 then
        assert byEmail[0] in byEmail;
        Outcome(t, Crashed("Multiple rows were found when one or none was required"))
      else if |byEmail| == 1 then
        assert byEmail[0] in byEmail;
        Outcome(t, Completed(Refusal(400, EmailTaken)))
      else if |byPhone| > 1 then
        assert byPhone[0] in byPhone;
        Outcome(t, Crashed("Multiple rows were found when one or none was required"))
      else if |byPhone| == 1 then
        assert byPhone[0] in byPhone;
        Outcome(t, Completed(Refusal(400, PhoneTaken)))
      else if !committed then Outcome(t, Completed(Refusal(400, CannotCreate)))
      else
        var u := NewUser(t.users, form, hash, now);
        Outcome(t.(users := t.users + [u]), Completed(Reply(201, Session(View(u), Token(u.id, u.data.role)))))
  }

  /** Signup.post on the session. */
  method Signup(db: Database, form: map<string, string>, hash: string -> string, committed: bool, now: int)
    returns (run: HandlerRun<Session>)
    modifies db
    ensures db.State() == SignupSpec(old(db.State()), form, hash, committed, now).tables
    ensures run == SignupSpec(old(db.State()), form, hash, committed, now).run
  {
    var missing := MissingArgument(form, SignupArguments);
    if missing.Some? {
      return Completed(Refusal(400, missing.value));
    }
    assert SignupArguments[2].name == "phone" && SignupArguments[3].name == "email";
    var byEmail := UsersWithEmail(db.users, form["email"]);
    if |byEmail| > 1 {
      return Crashed("Multiple rows were found when one or none was required");
    } else if |byEmail| == 1 {
      return Completed(Refusal(400, EmailTaken));
    }
    var byPhone := UsersWithPhone(db.users, form["phone"]);
    if |byPhone| > 1 {
      return Crashed("Multiple rows were found when one or none was required");
    } else if |byPhone| == 1 {
      return Completed(Refusal(400, PhoneTaken));
    }
    if !committed {
      return Completed(Refusal(400, CannotCreate));
    }
    var u := NewUser(db.users, form, hash, now);
    db.users := db.users + [u];
    run := Completed(Reply(201, Session(View(u), Token(u.id, u.data.role))));
  }

  /** Under the unique constraint on users.email, a lookup by email matches at most one row. */
  lemma OneUserPerEmail(users: seq<Row<UserData>>, email: string)
    requires Increasing(users) && UniqueContacts(users)
    ensures |UsersWithEmail(users, email)| <= 1
  {
    var matches := UsersWithEmail(users, email);
    if |matches| > 1 {
      assert matches[0] in matches && matches[1] in matches;
      var i :| 0 <= i < |users| && users[i] == matches[0];
      var j :| 0 <= j < |users| && users[j] == matches[1];
      assert i == j;
      FilterKeepsIncreasing(users, (u: Row<UserData>) => u.data.email == email);
      assert false;
    }
  }

  /** Under the unique constraint on users.phone, a lookup by phone matches at most one row. */
  lemma OneUserPerPhone(users: seq<Row<UserData>>, phone: string)
    requires Increasing(users) && UniqueContacts(users)
    ensures |UsersWithPhone(users, phone)| <= 1
  {
    var matches := UsersWithPhone(users, phone);
    if |matches| > 1 {
      assert matches[0] in matches && matches[1] in matches;
      var i :| 0 <= i < |users| && users[i] == matches[0];
      var j :| 0 <= j < |users| && users[j] == matches[1];
      assert i == j;
      FilterKeepsIncreasing(users, (u: Row<UserData>) => u.data.phone == phone);
      assert false;
    }
  }

  /** With the unique constraints holding, `one_or_none()` never raises and signup keeps the tables well formed. */
  lemma SignupKeepsWellFormed(t: Tables, form: map<string, string>, hash: string -> string, committed: bool, now: int)
    requires WellFormed(t)
    ensures SignupSpec(t, form, hash, committed, now).run.Completed?
    ensures WellFormed(SignupSpec(t, form, hash, committed, now).tables)
  {
    var o := SignupSpec(t, form, hash, committed, now);
    if MissingArgument(form, SignupArguments).None? {
      assert SignupArguments[2].name == "phone" && SignupArguments[3].name == "email";
      OneUserPerEmail(t.users, form["email"]);
      OneUserPerPhone(t.users, form["phone"]);
      if o.run.Completed? && o.run.answer.Reply? {
        var u := NewUser(t.users, form, hash, now);
        AppendKeepsIncreasing(t.users, u);
        var us := t.users + [u];
        forall i, j | 0 <= i < j < |us| ensures us[i].data.email != us[j].data.email && us[i].data.phone != us[j].data.phone {
          if j == |t.users| {
            assert us[i] in t.users;
          }
        }
      }
    }
  }

  // ---------------------------------------------------------------------
  // Login

  const UnknownEmail := "Invalid email/password"
  const WrongPassword := "Invalid email/passwprd"

  /**
   * Login.post: the first user with the email, then the password check
   * `check(storedHash, password)`. The two failures differ only in the
   * message's spelling, and both are 403.
   */
  function LoginSpec(t: Tables, form: map<string, string>, check: (string, string) -> bool): (a: Answer<Session>)
    ensures MissingArgument(form, LoginArguments).Some? ==>
      a == Refusal(400, MissingArgument(form, LoginArguments).value)
    ensures MissingArgument(form, LoginArguments).None? ==>
      var found := First(t.users, (u: Row<UserData>) => u.data.email == form["email"]);
      && (found.None? ==> a == Refusal(403, UnknownEmail))
      && (found.Some? && !check(found.value.data.passwordHash, form["password"]) ==> a == Refusal(403, WrongPassword))
      && (a.Reply? <==> found.Some? && check(found.value.data.passwordHash, form["password"]))
      && (a.Reply? ==> a == Reply(200, Session(View(found.value), Token(found.value.id, found.value.data.role))))
  {
    match MissingArgument(form, LoginArguments)
    case Some(help) => Refusal(400, help)
    case None =>
      assert LoginArguments[0].name == "email" && LoginArguments[1].name == "password";
      match First(t.users, (u: Row<UserData>) => u.data.email == form["email"])
      case None => Refusal(403, UnknownEmail)
      case Some(u) =>
        if check(u.data.passwordHash, form["password"]) then
          Reply(200, Session(View(u), Token(u.id, u.data.role)))
        else Refusal(403, WrongPassword)
  }

  /** A login token opens exactly the gate of the stored role, as the stored user. */
  lemma LoginTokenOpensOwnGate(t: Tables, form: map<string, string>, check: (string, string) -> bool, r: Role)
    requires LoginSpec(t, form, check).Reply?
    ensures var s := LoginSpec(t, form, check).value;
      && (Decide(r, TokenClaims(s.token)).Admit? <==> s.user.role == RoleName(r))
      && (Decide(r, TokenClaims(s.token)).Admit? ==> Decide(r, TokenClaims(s.token)).identity == s.user.id)
      && (exists u :: u in t.users && u.id == s.user.id && u.data.role == s.user.role)
  {
    assert MissingArgument(form, LoginArguments).None?;
    assert LoginArguments[0].name == "email";
    var found := First(t.users, (u: Row<UserData>) => u.data.email == form["email"]);
    assert found.Some?;
  }

  /**
   * Signing up and then logging in with the same email and password yields
   * the same user and the same token, provided the password check accepts
   * the hash signup stored.
   */
  lemma SignupThenLogin(t: Tables, form: map<string, string>, hash: string -> string, check: (string, string) -> bool,
                        now: int)
    requires SignupSpec(t, form, hash, true, now).run.Completed?
    requires SignupSpec(t, form, hash, true, now).run.answer.Reply?
    requires "password" in form && check(hash(form["password"]), form["password"])
    ensures LoginSpec(SignupSpec(t, form, hash, true, now).tables, form, check) ==
      Reply(200, SignupSpec(t, form, hash, true, now).run.answer.value)
  {
    var o := SignupSpec(t, form, hash, true, now);
    var u := NewUser(t.users, form, hash, now);
    var users := t.users + [u];
    assert MissingArgument(form, LoginArguments).None? by {
      assert SignupArguments[3] == LoginArguments[0] && SignupArguments[4] == LoginArguments[1];
    }
    var k := FirstIndex(users, (x: Row<UserData>) => x.data.email == form["email"]);
    assert users[|t.users|] == u;
    forall i | 0 <= i < |t.users| ensures users[i].data.email != form["email"] {
      assert users[i] in t.users;
    }
    assert k == Some(|t.users|);
  }

  /**
   * Signup stores whatever role the client sends: asking for "admin" yields
   * a token that admin_required admits, as the new user.
   */
  lemma SignupCanClaimAdmin(t: Tables, form: map<string, string>, hash: string -> string, now: int)
    requires SignupSpec(t, form, hash, true, now).run.Completed?
    requires SignupSpec(t, form, hash, true, now).run.answer.Reply?
    requires "role" in form && form["role"] == "admin"
    ensures var s := SignupSpec(t, form, hash, true, now).run.answer.value;
      Decide(Admin, TokenClaims(s.token)) == Admit(NextId(t.users))
  {
  }
}

=== FILE: gate.dfy ===
/**
 * The role gates of utils.py (admin_required, agent_required, user_required).
 *
 * The three decorators are one decision parameterised by the required role.
 * Token verification is abstracted to its outcome: rejected (signature,
 * expiry or a missing header all raise), or verified with the claims
 * dictionary that get_jwt() returns. The handler runs inside the same `try`,
 * so an exception it raises is also answered with 401.
 */
module Gate {
  import opened Records

  /** The claims of a verified token: its subject (the identity id) and its "role" claim, if any. */
  datatype Claims = Claims(subject: nat, role: Option<string>)

  /** What verify_jwt_in_request() followed by get_jwt() produce. */
  datatype Verification = Rejected(reason: string) | Verified(claims: Option<Claims>)

  /** A JSON response with its status code: a body, or a message. */
  datatype Answer<T> = Reply(status: nat, value: T) | Refusal(status: nat, message: string)

  /** How a handler body ends: with a response, or by raising an exception. */
  datatype HandlerRun<T> = Completed(answer: Answer<T>) | Crashed(error: string)

  /** The gate's decision before the handler is called. */
  datatype Decision = Admit(identity: nat) | Deny(status: nat, message: string)

  const InvalidToken := "Invalid or missing token"

  function RoleTitle(r: Role): string
  {
    match r
    case Admin => "Admin"
    case Agent => "Agent"
    case User => "User"
  }

  function Decide(required: Role, v: Verification): (d: Decision)
    ensures v.Rejected? ==> d == Deny(401, InvalidToken)
    ensures v == Verified(None) ==> d == Deny(403, "Unauthorized request")
    ensures d.Admit? <==> v.Verified? && v.claims.Some? && v.claims.value.role == Some(RoleName(required))
    ensures d.Admit? ==> d.identity == v.claims.value.subject
    ensures d.Deny? && v.Verified? && v.claims.Some? ==>
      d == Deny(403, "Unauthorized request - " + RoleTitle(required) + " access required")
  {
    match v
    case Rejected(_) => Deny(401, InvalidToken)
    case Verified(None) => Deny(403, "Unauthorized request")
    case Verified(Some(c)) =>
      if c.role == Some(RoleName(required)) then Admit(c.subject)
      else Deny(403, "Unauthorized request - " + RoleTitle(required) + " access required")
  }

  /** What the client receives from a handler that the gate let through. */
  function Settle<T>(run: HandlerRun<T>): (a: Answer<T>)
    ensures run.Completed? ==> a == run.answer
    ensures run.Crashed? ==> a == Refusal(401, InvalidToken)
  {
    match run
    case Completed(answer) => answer
    case Crashed(_) => Refusal(401, InvalidToken)
  }

  /** An undecorated handler: an exception reaches Flask, which answers 500. */
  function Unguarded<T>(run: HandlerRun<T>): (a: Answer<T>)
    ensures run.Completed? ==> a == run.answer
    ensures run.Crashed? ==> a == Refusal(500, "Internal Server Error")
  {
    match run
    case Completed(answer) => answer
    case Crashed(_) => Refusal(500, "Internal Server Error")
  }

  /**
   * A decorated handler: `run` is what the handler would do if called; the
   * gate's answer depends on it only when the claims carry the required role.
   */
  function Guarded<T>(required: Role, v: Verification, run: HandlerRun<T>): (a: Answer<T>)
    ensures Decide(required, v).Deny? ==>
      a == Refusal(Decide(required, v).status, Decide(required, v).message)
    ensures Decide(required, v).Admit? ==> a == Settle(run)
    ensures a.Refusal? && a.status == 401 ==> v.Rejected? || run.Crashed? || run == Completed(a)
  {
    match Decide(required, v)
    case Deny(status, message) => Refusal(status, message)
    case Admit(_) => Settle(run)
  }

  /** A request the gate refuses gets the same answer whatever the handler would have done. */
  lemma RefusedRequestIgnoresHandler<T>(required: Role, v: Verification, run1: HandlerRun<T>, run2: HandlerRun<T>)
    requires !(v.Verified? && v.claims.Some? && v.claims.value.role == Some(RoleName(required)))
    ensures Guarded(required, v, run1) == Guarded(required, v, run2)
    ensures Guarded(required, v, run1).status in {401, 403}
  {
  }

  /** No claims admit two gates: admin_required never admits an "agent" or "user" claim, and so on. */
  lemma GatesAreExclusive(a: Role, b: Role, v: Verification)
    requires Decide(a, v).Admit? && Decide(b, v).Admit?
    ensures a == b
  {
    RoleNameInjective(a, b);
  }

  /** A missing or unknown role claim is refused by every gate with 403: the gate fails closed on roles. */
  lemma UnknownRoleFailsClosed(required: Role, c: Claims)
    requires c.role !in {Some("admin"), Some("agent"), Some("user")}
    ensures Decide(required, Verified(Some(c))).Deny?
    ensures Decide(required, Verified(Some(c))).status == 403
  {
  }

  /** An exception inside an admitted handler reaches the client as an invalid token. */
  lemma HandlerCrashReadsAsInvalidToken<T>(required: Role, v: Verification, error: string)
    requires Decide(required, v).Admit?
    ensures Guarded(required, v, HandlerRun<T>.Crashed(error)) == Refusal(401, InvalidToken)
  {
  }
}

=== FILE: records.dfy ===
/**
 * The tables of the listing store, as rows of plain values, and the few
 * query shapes the resources use on them: filter, first match, lookup by
 * primary key, count, and "newest first with a limit".
 *
 * Every table is a sequence of rows kept in increasing primary-key order.
 * A new row gets the last id plus one, which is how SQLite assigns an
 * INTEGER PRIMARY KEY declared without AUTOINCREMENT.
 */
module Records {

  datatype Option<+T> = None | Some(value: T)

  /** The three roles of the users table. */
  datatype Role = Admin | Agent | User

  /** The text of a role, as stored in the users table and in a token's "role" claim. */
  function RoleName(r: Role): string
  {
    match r
    case Admin => "admin"
    case Agent => "agent"
    case User => "user"
  }

  lemma RoleNameInjective(a: Role, b: Role)
    ensures RoleName(a) == RoleName(b) ==> a == b
  {
  }

  /** A row: its primary key and its other columns. */
  datatype Row<T> = Row(id: nat, data: T)

  /** users; `role` is free text because the column's enumeration is not enforced by SQLite. */
  datatype UserData = UserData(
    firstName: string, lastName: string, phone: string, email: string,
    passwordHash: string, role: string, isVerified: bool, createdAt: int)

  /** AgentProfile: the indirection between an agent identity and the properties it owns. */
  datatype AgentProfileData = AgentProfileData(userId: nat)

  /** UserProfile: the indirection favorites are keyed by. */
  datatype UserProfileData = UserProfileData(userId: nat)

  datatype PropertyData = PropertyData(
    title: string, description: Option<string>, price: int, currency: string,
    listingType: string, status: string, propertyTypeId: int, agentId: nat,
    bedrooms: Option<int>, bathrooms: Option<int>, areaSize: Option<int>,
    areaUnit: Option<string>, listingDate: int, createdAt: int)

  datatype ImageData = ImageData(propertyId: nat, url: string, isPrimary: bool)

  datatype VideoData = VideoData(propertyId: nat, url: string)

  datatype LocationData = LocationData(city: Option<string>, neighborhood: Option<string>)

  datatype PropertyLocationData = PropertyLocationData(propertyId: nat, locationId: nat)

  /** A scheduled visit; `userId` is the raw identity id. */
  datatype ViewData = ViewData(propertyId: nat, userId: nat)

  /** An inquiry; `userId` is the raw identity id, `agentId` an AgentProfile id. */
  datatype InquiryData = InquiryData(
    propertyId: nat, userId: nat, agentId: nat, message: string, status: string,
    createdAt: Option<int>)

  /** A favorite; `userId` holds a UserProfile id, not an identity id. */
  datatype FavoriteData = FavoriteData(userId: nat, propertyId: nat)

  /** A payment; a missing amount is SQL NULL. */
  datatype PaymentData = PaymentData(
    userId: nat, agentId: nat, amount: Option<int>, status: string, createdAt: int)

  datatype Tables = Tables(
    users: seq<Row<UserData>>,
    agentProfiles: seq<Row<AgentProfileData>>,
    userProfiles: seq<Row<UserProfileData>>,
    properties: seq<Row<PropertyData>>,
    images: seq<Row<ImageData>>,
    videos: seq<Row<VideoData>>,
    locations: seq<Row<LocationData>>,
    propertyLocations: seq<Row<PropertyLocationData>>,
    views: seq<Row<ViewData>>,
    inquiries: seq<Row<InquiryData>>,
    favorites: seq<Row<FavoriteData>>,
    payments: seq<Row<PaymentData>>)

  // ---------------------------------------------------------------------
  // Table invariants

  predicate Increasing<T>(rows: seq<Row<T>>)
  {
    forall i, j :: 0 <= i < j < |rows| ==> rows[i].id < rows[j].id
  }

  /** The unique constraints on users.email and users.phone. */
  predicate UniqueContacts(users: seq<Row<UserData>>)
  {
    forall i, j :: 0 <= i < j < |users| ==>
      users[i].data.email != users[j].data.email && users[i].data.phone != users[j].data.phone
  }

  predicate WellFormed(t: Tables)
  {
    && Increasing(t.users) && UniqueContacts(t.users)
    && Increasing(t.agentProfiles) && Increasing(t.userProfiles)
    && Increasing(t.properties) && Increasing(t.images) && Increasing(t.videos)
    && Increasing(t.locations) && Increasing(t.propertyLocations)
    && Increasing(t.views) && Increasing(t.inquiries)
    && Increasing(t.favorites) && Increasing(t.payments)
  }

  /**
   * The id SQLite gives the next row inserted into `rows`: one more than the
   * largest id present (an INTEGER PRIMARY KEY without AUTOINCREMENT), so
   * the id of a deleted last row is handed out again.
   */
  function NextId<T>(rows: seq<Row<T>>): (id: nat)
    ensures id >= 1
    ensures forall i :: 0 <= i < |rows| ==> rows[i].id < id
    decreases |rows|
  {
    if rows == [] then 1
    else
      var rest := NextId(rows[..|rows| - 1]);
      var last := rows[|rows| - 1];
      assert forall r :: r in rows ==> r in rows[..|rows| - 1] || r == last;
      if last.id + 1 > rest then last.id + 1 else rest
  }

  /** On a table in id order the next id follows the last row's. */
  lemma {:induction false} NextIdOfIncreasing<T>(rows: seq<Row<T>>)
    requires Increasing(rows) && rows != []
    ensures NextId(rows) == rows[|rows| - 1].id + 1
    decreases |rows|
  {
    var init := rows[..|rows| - 1];
    if init != [] {
      NextIdOfIncreasing(init);
      assert init[|init| - 1] == rows[|rows| - 2];
    }
  }

  /** Inserting a row moves the next id past it, and never back. */
  lemma NextIdOfAppend<T>(rows: seq<Row<T>>, r: Row<T>)
    ensures NextId(rows + [r]) >= NextId(rows)
    ensures NextId(rows + [r]) > r.id
  {
    assert (rows + [r])[..|rows|] == rows;
  }

  /** The rows past `table`'s length all got ids `table` had not reached, and so will the next one. */
  predicate FreshPast<T>(table: seq<Row<T>>, rows: seq<Row<T>>)
  {
    (forall k :: |table| <= k < |rows| ==> rows[k].id >= NextId(table)) && NextId(rows) >= NextId(table)
  }

  lemma AppendStaysAbove<T>(table: seq<Row<T>>, rows: seq<Row<T>>, r: Row<T>)
    requires FreshPast(table, rows) && r.id >= NextId(rows)
    ensures FreshPast(table, rows + [r])
  {
    NextIdOfAppend(rows, r);
  }

  /** A row inserted at the next id is the one a lookup by that id finds. */
  lemma GetAppendedAtNextId<T(!new)>(rows: seq<Row<T>>, r: Row<T>)
    requires r.id == NextId(rows)
    ensures Get(rows + [r], r.id) == Some(r)
  {
    var all := rows + [r];
    assert all[|rows|] == r;
    assert forall i :: 0 <= i < |rows| ==> all[i].id < r.id;
    var g := Get(all, r.id);
    var i :| 0 <= i < |all| && all[i] == g.value;
    assert i == |rows|;
  }

  lemma AppendKeepsIncreasing<T>(rows: seq<Row<T>>, r: Row<T>)
    requires Increasing(rows) && r.id >= NextId(rows)
    ensures Increasing(rows + [r])
  {
    forall i | 0 <= i < |rows| ensures rows[i].id < r.id {
      assert rows[i] in rows;
    }
  }


  // ---------------------------------------------------------------------
  // Query shapes

  /** `query.filter(keep)`: the rows that satisfy `keep`, in table order. */
  function Filter<T(!new)>(xs: seq<T>, keep: T -> bool): (r: seq<T>)
    ensures |r| <= |xs|
    ensures forall x :: x in r <==> x in xs && keep(x)
    decreases |xs|
  {
    if xs == [] then []
    else
      var last := xs[|xs| - 1];
      Filter(xs[..|xs| - 1], keep) + (if keep(last) then [last] else [])
  }

  /** A filter every element passes changes nothing. */
  lemma {:induction false} FilterKeepsAll<T(!new)>(xs: seq<T>, keep: T -> bool)
    requires forall x :: x in xs ==> keep(x)
    ensures Filter(xs, keep) == xs
    decreases |xs|
  {
    if xs != [] {
      var init := xs[..|xs| - 1];
      assert forall x :: x in init ==> x in xs;
      FilterKeepsAll(init, keep);
      assert xs[|xs| - 1] in xs;
      assert init + [xs[|xs| - 1]] == xs;
    }
  }

  /** Deleting rows keeps the rest in id order. */
  lemma {:induction false} FilterKeepsIncreasing<T(!new)>(rows: seq<Row<T>>, keep: Row<T> -> bool)
    ensures Increasing(rows) ==> Increasing(Filter(rows, keep))
    decreases |rows|
  {
    if rows != [] && Increasing(rows) {
      var init, last := rows[..|rows| - 1], rows[|rows| - 1];
      assert Increasing(init);
      FilterKeepsIncreasing(init, keep);
      var f := Filter(init, keep);
      forall i | 0 <= i < |f| ensures f[i].id < last.id {
        assert f[i] in init;
      }
    }
  }

  lemma {:induction false} FilterOfAppend<T(!new)>(xs: seq<T>, ys: seq<T>, keep: T -> bool)
    ensures Filter(xs + ys, keep) == Filter(xs, keep) + Filter(ys, keep)
    decreases |ys|
  {
    if ys == [] {
      assert xs + ys == xs;
    } else {
      var init := ys[..|ys| - 1];
      assert (xs + ys)[..|xs + ys| - 1] == xs + init;
      FilterOfAppend(xs, init, keep);
    }
  }

  /** Filtering by a stronger condition keeps no more rows. */
  lemma {:induction false} FilterStrongerIsShorter<T(!new)>(xs: seq<T>, strong: T -> bool, weak: T -> bool)
    requires forall x :: x in xs && strong(x) ==> weak(x)
    ensures |Filter(xs, strong)| <= |Filter(xs, weak)|
    decreases |xs|
  {
    if xs != [] {
      var init := xs[..|xs| - 1];
      assert forall x :: x in init ==> x in xs;
      FilterStrongerIsShorter(init, strong, weak);
    }
  }

  /** The position of the first element satisfying `p`. */
  function FirstIndex<T>(xs: seq<T>, p: T -> bool): (k: Option<nat>)
    ensures k.Some? ==> k.value < |xs| && p(xs[k.value])
    ensures k.Some? ==> forall j :: 0 <= j < k.value ==> !p(xs[j])
    ensures k.None? ==> forall j :: 0 <= j < |xs| ==> !p(xs[j])
    decreases |xs|
  {
    if xs == [] then None
    else if p(xs[0]) then Some(0)
    else
      match FirstIndex(xs[1..], p)
      case None => None
      case Some(k) => Some(k + 1)
  }

  /** `query.filter(p).first()`. */
  function First<T(!new)>(xs: seq<T>, p: T -> bool): (r: Option<T>)
    ensures r.Some? ==> r.value in xs && p(r.value)
    ensures r.Some? ==> exists k :: 0 <= k < |xs| && xs[k] == r.value && forall j :: 0 <= j < k ==> !p(xs[j])
    ensures r.None? ==> forall x :: x in xs ==> !p(x)
  {
    match FirstIndex(xs, p)
    case None => None
    case Some(k) => Some(xs[k])
  }

  /** `Model.query.get(id)`: the row with this primary key. */
  function Get<T(!new)>(rows: seq<Row<T>>, id: nat): (r: Option<Row<T>>)
    ensures r.Some? ==> r.value in rows && r.value.id == id
    ensures r.None? ==> forall x :: x in rows ==> x.id != id
  {
    First(rows, (x: Row<T>) => x.id == id)
  }

  /** How many of `n` rows `LIMIT limit` returns: all of them for a negative limit, as in SQLite. */
  function LimitedCount(n: nat, limit: int): nat
  {
    if 0 <= limit < n then limit else n
  }

  /**
   * `ORDER BY created_at DESC LIMIT limit` on a table whose rows were created
   * in table order; a negative limit means no limit, as in SQLite.
   */
  function Newest<T>(xs: seq<T>, limit: int): (r: seq<T>)
    ensures limit < 0 ==> |r| == |xs|
    ensures 0 <= limit ==> |r| == if limit < |xs| then limit else |xs|
    ensures |r| == LimitedCount(|xs|, limit)
    ensures forall i :: 0 <= i < |r| ==> r[i] == xs[|xs| - 1 - i]
  {
    var n := if limit < 0 || limit > |xs| then |xs| else limit;
    seq(n, i requires 0 <= i < n => xs[|xs| - 1 - i])
  }

  /** SQL SUM over a nullable amount column: NULL amounts add nothing. */
  function TotalAmount(payments: seq<Row<PaymentData>>): int
    decreases |payments|
  {
    if payments == [] then 0
    else
      var last := payments[|payments| - 1];
      TotalAmount(payments[..|payments| - 1]) + (match last.data.amount case None => 0 case Some(a) => a)
  }

  lemma {:induction false} TotalAmountOfNulls(payments: seq<Row<PaymentData>>)
    requires forall p :: p in payments ==> p.data.amount.None?
    ensures TotalAmount(payments) == 0
    decreases |payments|
  {
    if payments != [] {
      var init := payments[..|payments| - 1];
      assert forall p :: p in init ==> p in payments;
      TotalAmountOfNulls(init);
    }
  }
}

=== FILE: routes.dfy ===
/**
 * Gate placement: which decorator of utils.py sits on each resource of the
 * core, and the endpoints as the client sees them, the gate's decision
 * composed with the handler it guards.
 */
module Routes {
  import opened Records
  import opened Gate
  import opened Store
  import AgentQueries
  import AgentEdits
  import UserResources
  import AdminResources
  import AuthResources

  /** The resources of the core, by the file that declares them. */
  datatype Endpoint =
    // resources/admin.py
    | UsersListing | AdminDashboard | PendingAgents | AgentApproval | RecentUsers | PublicProperties
    // resources/agent.py
    | AgentDashboard | AgentProperties | AgentInquiries
    | AgentPropertyDetail | AgentPropertyCreate | AgentPropertyUpdate | AgentPropertyDelete
    // resources/user.py
    | UserProperties | UserPropertyDetail | UserDashboard | SavedProperties | ToggleFavorite | RecentActivities
    // resources/auth.py
    | Signup | Login

  predicate DeclaredInAdminModule(e: Endpoint)
  {
    e in {UsersListing, AdminDashboard, PendingAgents, AgentApproval, RecentUsers, PublicProperties}
  }

  predicate DeclaredInAgentModule(e: Endpoint)
  {
    e in {AgentDashboard, AgentProperties, AgentInquiries,
          AgentPropertyDetail, AgentPropertyCreate, AgentPropertyUpdate, AgentPropertyDelete}
  }

  predicate DeclaredInUserModule(e: Endpoint)
  {
    e in {UserProperties, UserPropertyDetail, UserDashboard, SavedProperties, ToggleFavorite, RecentActivities}
  }

  /** The role the resource's decorator demands; None for an undecorated resource. */
  function RequiredRole(e: Endpoint): (r: Option<Role>)
    ensures DeclaredInAdminModule(e) ==> (r == Some(Admin) <==> e != PublicProperties)
    ensures DeclaredInAgentModule(e) ==> r == Some(Agent)
    ensures DeclaredInUserModule(e) ==> (r == Some(User) <==> e !in {UserProperties, UserPropertyDetail})
    ensures r.None? <==> e in {PublicProperties, UserProperties, UserPropertyDetail, Signup, Login}
  {
    match e
    case UsersListing => Some(Admin)
    case AdminDashboard => Some(Admin)
    case PendingAgents => Some(Admin)
    case AgentApproval => Some(Admin)
    case RecentUsers => Some(Admin)
    case PublicProperties => None
    case AgentDashboard => Some(Agent)
    case AgentProperties => Some(Agent)
    case AgentInquiries => Some(Agent)
    case AgentPropertyDetail => Some(Agent)
    case AgentPropertyCreate => Some(Agent)
    case AgentPropertyUpdate => Some(Agent)
    case AgentPropertyDelete => Some(Agent)
    case UserProperties => None
    case UserPropertyDetail => None
    case UserDashboard => Some(User)
    case SavedProperties => Some(User)
    case ToggleFavorite => Some(User)
    case RecentActivities => Some(User)
    case Signup => None
    case Login => None
  }

  /** The gate of `e`, admitting as the token's subject; the handler runs only when admitted. */
  function Respond<T>(e: Endpoint, v: Verification, handler: nat -> HandlerRun<T>): (a: Answer<T>)
    requires RequiredRole(e).Some?
    ensures v.Rejected? ==> a == Refusal(401, InvalidToken)
    ensures Decide(RequiredRole(e).value, v).Deny? ==>
      a == Refusal(Decide(RequiredRole(e).value, v).status, Decide(RequiredRole(e).value, v).message)
    ensures Decide(RequiredRole(e).value, v).Admit? ==> a == Settle(handler(Decide(RequiredRole(e).value, v).identity))
  {
    match Decide(RequiredRole(e).value, v)
    case Deny(status, message) => Refusal(status, message)
    case Admit(identity) => Settle(handler(identity))
  }

  /** The token carries the role the endpoint's gate demands. */
  predicate Carries(e: Endpoint, v: Verification)
    requires RequiredRole(e).Some?
  {
    v.Verified? && v.claims.Some? && v.claims.value.role == Some(RoleName(RequiredRole(e).value))
  }

  // ---------------------------------------------------------------------
  // Read-only endpoints

  /** UsersResource.get: every user row. */
  function UsersListingAt(t: Tables, v: Verification): (a: Answer<seq<Row<UserData>>>)
    ensures a.Reply? <==> Carries(UsersListing, v)
    ensures a.Reply? ==> a.value == t.users
  {
    Respond(UsersListing, v, (identity: nat) => Completed(Reply(200, t.users)))
  }

  function AdminDashboardAt(t: Tables, v: Verification): (a: Answer<AdminResources.AdminStats>)
    ensures a.Reply? <==> Carries(AdminDashboard, v)
    ensures a.Reply? ==> a == AdminResources.AdminStatsOf(t)
  {
    Respond(AdminDashboard, v, (identity: nat) => Completed(AdminResources.AdminStatsOf(t)))
  }

  function PendingAgentsAt(t: Tables, v: Verification): (a: Answer<seq<AdminResources.PendingView>>)
    ensures a.Reply? <==> Carries(PendingAgents, v)
    ensures a.Reply? ==> a == AdminResources.PendingList(t)
  {
    Respond(PendingAgents, v, (identity: nat) => Completed(AdminResources.PendingList(t)))
  }

  function RecentUsersAt(t: Tables, v: Verification): (a: Answer<seq<AdminResources.RecentUserView>>)
    ensures a.Reply? <==> Carries(RecentUsers, v)
    ensures a.Reply? ==> a == AdminResources.RecentUsersList(t)
  {
    Respond(RecentUsers, v, (identity: nat) => Completed(AdminResources.RecentUsersList(t)))
  }

  /** AgentStatsResource.get: the handler raises for an agent without a profile, which reads as 401. */
  function AgentDashboardAt(t: Tables, v: Verification, monthStart: int): (a: Answer<AgentQueries.AgentStats>)
    ensures a.Reply? <==> Carries(AgentDashboard, v) && AgentQueries.AgentProfileOf(t, v.claims.value.subject).Some?
    ensures Carries(AgentDashboard, v) && AgentQueries.AgentProfileOf(t, v.claims.value.subject).None? ==>
      a == Refusal(401, InvalidToken)
  {
    Respond(AgentDashboard, v, (identity: nat) => AgentQueries.AgentStatsRun(t, identity, monthStart))
  }

  function AgentPropertiesAt(t: Tables, v: Verification, limitArg: Option<string>)
    : (a: Answer<seq<AgentQueries.PropertySummary>>)
    ensures a.Reply? <==> Carries(AgentProperties, v)
    ensures a.Reply? ==> a == AgentQueries.RecentProperties(t, v.claims.value.subject, AgentQueries.LimitArg(limitArg))
  {
    Respond(AgentProperties, v,
      (identity: nat) => Completed(AgentQueries.RecentProperties(t, identity, AgentQueries.LimitArg(limitArg))))
  }

  function AgentInquiriesAt(t: Tables, v: Verification, limitArg: Option<string>, now: int)
    : (a: Answer<seq<AgentQueries.InquirySummary>>)
    ensures a.Reply? <==> Carries(AgentInquiries, v)
    ensures a.Reply? ==> a == AgentQueries.RecentInquiries(t, v.claims.value.subject, AgentQueries.LimitArg(limitArg), now)
  {
    Respond(AgentInquiries, v,
      (identity: nat) => Completed(AgentQueries.RecentInquiries(t, identity, AgentQueries.LimitArg(limitArg), now)))
  }

  function UserDashboardAt(t: Tables, v: Verification): (a: Answer<UserResources.Stats>)
    ensures a.Reply? <==> Carries(UserDashboard, v)
    ensures a.Reply? ==> a == UserResources.UserStats(t, v.claims.value.subject)
  {
    Respond(UserDashboard, v, (identity: nat) => Completed(UserResources.UserStats(t, identity)))
  }

  /** AgentPropertyDetailResource.get behind agent_required. */
  method AgentPropertyDetailAt(t: Tables, v: Verification, propertyId: nat) returns (a: Answer<AgentQueries.PropertyDetail>)
    ensures !Carries(AgentPropertyDetail, v) ==>
      a == Refusal(Decide(Agent, v).status, Decide(Agent, v).message)
    ensures Carries(AgentPropertyDetail, v) ==>
      (a.Reply? <==> AgentQueries.Locate(t, v.claims.value.subject, propertyId).Reply?)
    ensures Carries(AgentPropertyDetail, v) && a.Refusal? ==>
      a == Refusal(404, AgentQueries.Locate(t, v.claims.value.subject, propertyId).message)
    ensures a.Reply? ==> a == Reply(200, AgentQueries.PropertyDetail(
      AgentQueries.Locate(t, v.claims.value.subject, propertyId).value.property,
      AgentQueries.DisplayedImages(t.images, propertyId),
      AgentQueries.DisplayedVideos(t.videos, propertyId),
      |AgentQueries.ViewsOf(t.views, propertyId)|,
      AgentQueries.LocationOf(t, propertyId)))
    ensures a.Refusal? ==> a.status in {401, 403, 404}
  {
    match Decide(Agent, v)
    case Deny(status, message) =>
      a := Refusal(status, message);
    case Admit(identity) =>
      a := AgentQueries.Detail(t, identity, propertyId);
  }

  /** SavedPropertiesResource.get behind user_required. */
  method SavedPropertiesAt(t: Tables, v: Verification) returns (a: Answer<seq<Row<PropertyData>>>)
    ensures !Carries(SavedProperties, v) ==> a == Refusal(Decide(User, v).status, Decide(User, v).message)
    ensures Carries(SavedProperties, v) ==> a == UserResources.Saved(t, v.claims.value.subject)
  {
    match Decide(User, v)
    case Deny(status, message) =>
      a := Refusal(status, message);
    case Admit(identity) =>
      a := UserResources.SavedProperties(t, identity);
  }

  // ---------------------------------------------------------------------
  // Endpoints that write

  /** AgentPropertyCreateResource.post behind agent_required; only a 201 changes the store. */
  method AgentPropertyCreateAt(db: Database, v: Verification, form: map<string, string>,
                               images: seq<AgentEdits.Upload>, videos: seq<AgentEdits.Upload>, now: int)
    returns (a: Answer<AgentEdits.CreateReply>)
    modifies db
    ensures !Carries(AgentPropertyCreate, v) ==>
      db.State() == old(db.State()) && a == Refusal(Decide(Agent, v).status, Decide(Agent, v).message)
    ensures Carries(AgentPropertyCreate, v) ==>
      var o := AgentEdits.CreateSpec(old(db.State()), v.claims.value.subject, form, images, videos, now);
      db.State() == o.tables && a == Settle(o.run)
    ensures db.State() != old(db.State()) ==> a.Reply? && a.status == 201
  {
    match Decide(Agent, v)
    case Deny(status, message) =>
      a := Refusal(status, message);
    case Admit(identity) =>
      var run := AgentEdits.Create(db, identity, form, images, videos, now);
      a := Settle(run);
  }

  /** AgentPropertyUpdateResource.put behind agent_required; only a 200 changes the store. */
  method AgentPropertyUpdateAt(db: Database, v: Verification, propertyId: nat, form: map<string, string>,
                               images: seq<AgentEdits.Upload>, videos: seq<AgentEdits.Upload>,
                               keepImages: AgentEdits.KeptIds, keepVideos: AgentEdits.KeptIds)
    returns (a: Answer<nat>)
    modifies db
    ensures !Carries(AgentPropertyUpdate, v) ==>
      db.State() == old(db.State()) && a == Refusal(Decide(Agent, v).status, Decide(Agent, v).message)
    ensures Carries(AgentPropertyUpdate, v) ==>
      var o := AgentEdits.UpdateSpec(old(db.State()), v.claims.value.subject, propertyId, form, images, videos,
                                     keepImages, keepVideos);
      db.State() == o.tables && a == Settle(o.run)
    ensures db.State() != old(db.State()) ==> a == Reply(200, propertyId)
  {
    match Decide(Agent, v)
    case Deny(status, message) =>
      a := Refusal(status, message);
    case Admit(identity) =>
      var run := AgentEdits.Update(db, identity, propertyId, form, images, videos, keepImages, keepVideos);
      a := Settle(run);
  }

  /** AgentPropertyDeleteResource.delete behind agent_required; only a 200 changes the store. */
  method AgentPropertyDeleteAt(db: Database, v: Verification, propertyId: nat) returns (a: Answer<string>)
    modifies db
    ensures !Carries(AgentPropertyDelete, v) ==>
      db.State() == old(db.State()) && a == Refusal(Decide(Agent, v).status, Decide(Agent, v).message)
    ensures Carries(AgentPropertyDelete, v) ==>
      var o := AgentEdits.DeleteSpec(old(db.State()), v.claims.value.subject, propertyId);
      db.State() == o.tables && a == Settle(o.run)
    ensures db.State() != old(db.State()) ==> a == Reply(200, AgentEdits.Deleted)
  {
    match Decide(Agent, v)
    case Deny(status, message) =>
      a := Refusal(status, message);
    case Admit(identity) =>
      var run := AgentEdits.Delete(db, identity, propertyId);
      a := Settle(run);
  }

  /** ToggleFavoriteResource.post behind user_required; only a 200 changes the store. */
  method ToggleFavoriteAt(db: Database, v: Verification, body: UserResources.ToggleBody) returns (a: Answer<bool>)
    modifies db
    ensures !Carries(ToggleFavorite, v) ==>
      db.State() == old(db.State()) && a == Refusal(Decide(User, v).status, Decide(User, v).message)
    ensures Carries(ToggleFavorite, v) ==>
      var o := UserResources.ToggleSpec(old(db.State()), v.claims.value.subject, body);
      db.State() == o.tables && a == Settle(o.run)
    ensures db.State() != old(db.State()) ==> a.Reply? && a.status == 200
  {
    match Decide(User, v)
    case Deny(status, message) =>
      a := Refusal(status, message);
    case Admit(identity) =>
      var run := UserResources.ToggleFavorite(db, identity, body);
      a := Settle(run);
  }

  /** AgentApproval.patch behind admin_required; only a 200 changes the store. */
  method AgentApprovalAt(db: Database, v: Verification, userId: nat, body: AdminResources.ApprovalBody)
    returns (a: Answer<string>)
    modifies db
    ensures !Carries(AgentApproval, v) ==>
      db.State() == old(db.State()) && a == Refusal(Decide(Admin, v).status, Decide(Admin, v).message)
    ensures Carries(AgentApproval, v) ==>
      var o := AdminResources.ApproveSpec(old(db.State()), userId, body);
      db.State() == o.tables && a == Settle(o.run)
    ensures db.State() != old(db.State()) ==> a.Reply? && a.status == 200
  {
    match Decide(Admin, v)
    case Deny(status, message) =>
      a := Refusal(status, message);
    case Admit(identity) =>
      var run := AdminResources.Approve(db, userId, body);
      a := Settle(run);
  }

  /** Signup.post, undecorated: an exception is a 500, and only a 201 changes the store. */
  method SignupAt(db: Database, form: map<string, string>, hash: string -> string, committed: bool, now: int)
    returns (a: Answer<AuthResources.Session>)
    modifies db
    ensures var o := AuthResources.SignupSpec(old(db.State()), form, hash, committed, now);
      db.State() == o.tables && a == Unguarded(o.run)
    ensures db.State() != old(db.State()) ==> a.Reply? && a.status == 201
  {
    var run := AuthResources.Signup(db, form, hash, committed, now);
    a := Unguarded(run);
  }

  // ---------------------------------------------------------------------
  // Properties across endpoints

  /**
   * Another agent's property: detail, update and delete all answer the 404
   * a nonexistent id gets, and neither write changes anything.
   */
  lemma ForeignPropertyIsShielded(t: Tables, identity: nat, propertyId: nat, missingId: nat,
                                  form: map<string, string>, images: seq<AgentEdits.Upload>, videos: seq<AgentEdits.Upload>,
                                  keepImages: AgentEdits.KeptIds, keepVideos: AgentEdits.KeptIds)
    requires Increasing(t.properties)
    requires AgentQueries.AgentProfileOf(t, identity).Some?
    requires exists p :: (p in t.properties && p.id == propertyId &&
                          p.data.agentId != AgentQueries.AgentProfileOf(t, identity).value.id)
    requires forall p :: p in t.properties ==> p.id != missingId
    ensures AgentEdits.UpdateSpec(t, identity, propertyId, form, images, videos, keepImages, keepVideos)
         == AgentEdits.UpdateSpec(t, identity, missingId, form, images, videos, keepImages, keepVideos)
         == AgentEdits.Outcome(t, Completed(Refusal(404, AgentQueries.NoProperty)))
    ensures AgentEdits.DeleteSpec(t, identity, propertyId) == AgentEdits.DeleteSpec(t, identity, missingId)
         == AgentEdits.Outcome(t, Completed(Refusal(404, AgentQueries.NoProperty)))
  {
    AgentQueries.ForeignPropertyLooksMissing(t, identity, propertyId, missingId);
  }

  /** A token that fails verification is refused with 401 by every decorated endpoint, whatever the handler. */
  lemma RejectedTokenIsRefusedEverywhere<T>(e: Endpoint, reason: string, handler: nat -> HandlerRun<T>)
    requires RequiredRole(e).Some?
    ensures Respond(e, Rejected(reason), handler) == Refusal(401, InvalidToken)
  {
  }

  /** A signup that names a role gets a token that the decorated endpoints of that role admit, as the new user. */
  lemma SignupOpensTheGateOfItsRole(t: Tables, form: map<string, string>, hash: string -> string, now: int,
                                    e: Endpoint)
    requires RequiredRole(e).Some?
    requires AuthResources.SignupSpec(t, form, hash, true, now).run.Completed?
    requires AuthResources.SignupSpec(t, form, hash, true, now).run.answer.Reply?
    requires "role" in form && form["role"] == RoleName(RequiredRole(e).value)
    ensures var token := AuthResources.SignupSpec(t, form, hash, true, now).run.answer.value.token;
      Carries(e, AuthResources.TokenClaims(token)) && token.subject == NextId(t.users)
  {
  }
}

=== FILE: store.dfy ===
/**
 * The database session the resources mutate: one field per table. A handler
 * that changes the store reassigns the fields it touches and commits; the
 * model treats each request as one sequential step, as the source does not
 * wrap its check-then-mutate sequences in a transaction.
 */
module Store {
  import opened Records

  class Database {
    var users: seq<Row<UserData>>
    var agentProfiles: seq<Row<AgentProfileData>>
    var userProfiles: seq<Row<UserProfileData>>
    var properties: seq<Row<PropertyData>>
    var images: seq<Row<ImageData>>
    var videos: seq<Row<VideoData>>
    var locations: seq<Row<LocationData>>
    var propertyLocations: seq<Row<PropertyLocationData>>
    var views: seq<Row<ViewData>>
    var inquiries: seq<Row<InquiryData>>
    var favorites: seq<Row<FavoriteData>>
    var payments: seq<Row<PaymentData>>

    /** All tables as one value. */
    function State(): Tables
      reads this
    {
      Tables(users, agentProfiles, userProfiles, properties, images, videos,
             locations, propertyLocations, views, inquiries, favorites, payments)
    }

    /** Opens a session on existing tables. */
    constructor Open(t: Tables)
      ensures State() == t
    {
      users, agentProfiles, userProfiles := t.users, t.agentProfiles, t.userProfiles;
      properties, images, videos := t.properties, t.images, t.videos;
      locations, propertyLocations := t.locations, t.propertyLocations;
      views, inquiries, favorites, payments := t.views, t.inquiries, t.favorites, t.payments;
    }
  }
}

=== FILE: text.dfy ===
/**
 * The string conversions the resources rely on: Python's int() on a form
 * value, f-string rendering of integers and booleans, str.lower() and
 * str.capitalize(), and reading a submitted form.
 */
module Text {
  import opened Records

  predicate IsDigit(c: char)
  {
    '0' <= c <= '9'
  }

  predicate AllDigits(s: string)
  {
    forall i :: 0 <= i < |s| ==> IsDigit(s[i])
  }

  function DigitChar(d: nat): (c: char)
    requires d < 10
    ensures IsDigit(c) && c as int - '0' as int == d
  {
    ('0' as int + d) as char
  }

  /** The value of a string of decimal digits, most significant first. */
  function DigitsValue(s: string): nat
    requires AllDigits(s)
    decreases |s|
  {
    if s == [] then 0
    else DigitsValue(s[..|s| - 1]) * 10 + (s[|s| - 1] as int - '0' as int)
  }

  /** Decimal rendering of a natural number, as an f-string prints it. */
  function NatToString(n: nat): (s: string)
    ensures |s| >= 1 && AllDigits(s)
    decreases n
  {
    if n < 10 then [DigitChar(n)] else NatToString(n / 10) + [DigitChar(n % 10)]
  }

  function IntToString(i: int): (s: string)
  {
    if i < 0 then "-" + NatToString(-i) else NatToString(i)
  }

  /**
   * Python's int() applied to a string: an optional sign followed by one or
   * more decimal digits; anything else makes int() raise, here None.
   */
  function ParseInt(s: string): (r: Option<int>)
    ensures r.Some? <==>
      (|s| >= 1 && AllDigits(s)) || (|s| >= 2 && (s[0] == '-' || s[0] == '+') && AllDigits(s[1..]))
    ensures AllDigits(s) && |s| >= 1 ==> r == Some(DigitsValue(s))
    ensures r.Some? && s[0] == '-' ==> r.value == -(DigitsValue(s[1..]) as int)
    ensures r.Some? && s[0] == '+' ==> r.value == DigitsValue(s[1..])
  {
    if |s| >= 2 && (s[0] == '-' || s[0] == '+') && AllDigits(s[1..]) then
      var magnitude: int := DigitsValue(s[1..]);
      Some(if s[0] == '-' then -magnitude else magnitude)
    else if |s| >= 1 && AllDigits(s) then
      Some(DigitsValue(s))
    else
      None
  }

  lemma {:induction false} NatToStringValue(n: nat)
    ensures DigitsValue(NatToString(n)) == n
    decreases n
  {
    if n >= 10 {
      NatToStringValue(n / 10);
      var s := NatToString(n);
      assert s[..|s| - 1] == NatToString(n / 10);
    }
  }

  /** Rendering an integer and reading it back with int() gives the integer. */
  lemma ParseIntRoundTrip(i: int)
    ensures ParseInt(IntToString(i)) == Some(i)
  {
    var s := IntToString(i);
    if i < 0 {
      var digits := NatToString(-i);
      NatToStringValue(-i);
      assert s == "-" + digits && s[1..] == digits;
      assert s[0] == '-' && |s| >= 2 && AllDigits(s[1..]);
    } else {
      NatToStringValue(i);
      assert s == NatToString(i) && IsDigit(s[0]);
    }
  }

  /** str(b) for a Python bool. */
  function BoolToString(b: bool): string
  {
    if b then "True" else "False"
  }

  function LowerChar(c: char): char
  {
    if 'A' <= c <= 'Z' then (c as int + 32) as char else c
  }

  function UpperChar(c: char): char
  {
    if 'a' <= c <= 'z' then (c as int - 32) as char else c
  }

  /** str.lower() on ASCII letters. */
  function Lower(s: string): (r: string)
    ensures |r| == |s|
    ensures forall i :: 0 <= i < |s| ==> r[i] == LowerChar(s[i])
  {
    seq(|s|, i requires 0 <= i < |s| => LowerChar(s[i]))
  }

  /** str.capitalize() on ASCII letters: first letter upper, the rest lower. */
  function Capitalize(s: string): (r: string)
    ensures |r| == |s|
    ensures |s| > 0 ==> r[0] == UpperChar(s[0]) && r[1..] == Lower(s[1..])
  {
    if s == [] then [] else [UpperChar(s[0])] + Lower(s[1..])
  }

  /** `request.form.get(key)`. */
  function FormGet(form: map<string, string>, key: string): (v: Option<string>)
    ensures v.Some? <==> key in form
  {
    if key in form then Some(form[key]) else None
  }

  /** `request.form.get(key, default)`. */
  function FormGetOr(form: map<string, string>, key: string, default: string): (v: string)
    ensures key !in form ==> v == default
    ensures key in form ==> v == form[key]
  {
    if key in form then form[key] else default
  }

  /** A form value is truthy in Python when it is present and not the empty string. */
  predicate Supplied(form: map<string, string>, key: string)
  {
    key in form && form[key] != ""
  }
}

=== FILE: url_dedup.dfy ===
/**
 * The de-duplication loops of the agent's property detail
 * (resources/agent.py, images and videos): walk the rows in order, keep a
 * row when its URL has not been seen yet, and remember the URL.
 */
module UrlDedup {

  /** The URLs occurring in `xs`. */
  function UrlsOf<T>(xs: seq<T>, url: T -> string): (s: set<string>)
    ensures forall i :: 0 <= i < |xs| ==> url(xs[i]) in s
    ensures forall u :: u in s ==> exists i :: 0 <= i < |xs| && url(xs[i]) == u
  {
    set i | 0 <= i < |xs| :: url(xs[i])
  }

  predicate NoDuplicateUrls<T>(xs: seq<T>, url: T -> string)
  {
    forall i, j :: 0 <= i < j < |xs| ==> url(xs[i]) != url(xs[j])
  }

  /** Position `i` holds the first row of `xs` with its URL. */
  predicate IsFirst<T>(xs: seq<T>, i: nat, url: T -> string)
    requires i < |xs|
  {
    forall k :: 0 <= k < i ==> url(xs[k]) != url(xs[i])
  }

  /**
   * Reference definition: the rows among the first `n` of `xs` that are the
   * first with their URL, in input order.
   */
  function FirstOccurrences<T>(xs: seq<T>, url: T -> string, n: nat): seq<T>
    requires n <= |xs|
  {
    if n == 0 then []
    else FirstOccurrences(xs, url, n - 1) + (if IsFirst(xs, n - 1, url) then [xs[n - 1]] else [])
  }

  /** What the loop has built after reading `xs`: one step per row, as the loop does. */
  function Unique<T>(xs: seq<T>, url: T -> string): seq<T>
    decreases |xs|
  {
    if xs == [] then []
    else
      var kept := Unique(xs[..|xs| - 1], url);
      if url(xs[|xs| - 1]) in UrlsOf(kept, url) then kept else kept + [xs[|xs| - 1]]
  }

  lemma UrlsOfAppend<T>(xs: seq<T>, x: T, url: T -> string)
    ensures UrlsOf(xs + [x], url) == UrlsOf(xs, url) + {url(x)}
  {
    var ys := xs + [x];
    assert forall i :: 0 <= i < |xs| ==> ys[i] == xs[i];
    assert ys[|xs|] == x;
  }

  /** Two sequences holding the same rows hold the same URLs, whatever their order. */
  lemma UrlsOfSameRows<T>(xs: seq<T>, ys: seq<T>, url: T -> string)
    requires multiset(xs) == multiset(ys)
    ensures UrlsOf(xs, url) == UrlsOf(ys, url)
  {
    forall u | u in UrlsOf(xs, url) ensures u in UrlsOf(ys, url) {
      var k :| 0 <= k < |xs| && url(xs[k]) == u;
      assert xs[k] in multiset(ys);
      var m :| 0 <= m < |ys| && ys[m] == xs[k];
    }
    forall u | u in UrlsOf(ys, url) ensures u in UrlsOf(xs, url) {
      var k :| 0 <= k < |ys| && url(ys[k]) == u;
      assert ys[k] in multiset(xs);
      var m :| 0 <= m < |xs| && xs[m] == ys[k];
    }
  }

  /** The loop keeps a row of every URL it reads, so no input URL is lost. */
  lemma {:induction false} UniqueCoversEveryUrl<T>(xs: seq<T>, url: T -> string)
    ensures UrlsOf(Unique(xs, url), url) == UrlsOf(xs, url)
    decreases |xs|
  {
    if xs != [] {
      var init, last := xs[..|xs| - 1], xs[|xs| - 1];
      UniqueCoversEveryUrl(init, url);
      var kept := Unique(init, url);
      assert xs == init + [last];
      UrlsOfAppend(init, last, url);
      UrlsOfAppend(kept, last, url);
    }
  }

  lemma {:induction false} UniqueHasNoDuplicates<T>(xs: seq<T>, url: T -> string)
    ensures NoDuplicateUrls(Unique(xs, url), url)
    decreases |xs|
  {
    if xs != [] {
      var init, last := xs[..|xs| - 1], xs[|xs| - 1];
      UniqueHasNoDuplicates(init, url);
    }
  }

  /** The loop keeps exactly the first occurrence of each URL, in input order. */
  lemma {:induction false} UniqueIsFirstOccurrences<T>(xs: seq<T>, url: T -> string, n: nat)
    requires n <= |xs|
    ensures Unique(xs[..n], url) == FirstOccurrences(xs, url, n)
    decreases n
  {
    if n > 0 {
      var init := xs[..n - 1];
      assert xs[..n][..n - 1] == init;
      UniqueIsFirstOccurrences(xs, url, n - 1);
      UniqueCoversEveryUrl(init, url);
      var kept := Unique(init, url);
      if !IsFirst(xs, n - 1, url) {
        var k :| 0 <= k < n - 1 && url(xs[k]) == url(xs[n - 1]);
        assert url(init[k]) in UrlsOf(init, url);
      }
    }
  }

  /** The de-duplication loop. */
  method Dedup<T>(xs: seq<T>, url: T -> string) returns (out: seq<T>)
    ensures out == FirstOccurrences(xs, url, |xs|)
    ensures NoDuplicateUrls(out, url)
    ensures UrlsOf(out, url) == UrlsOf(xs, url)
  {
    var seen: set<string> := {};
    out := [];
    var i := 0;
    while i < |xs|
      invariant 0 <= i <= |xs|
      invariant out == Unique(xs[..i], url)
      invariant seen == UrlsOf(out, url)
    {
      assert xs[..i + 1][..i] == xs[..i];
      UrlsOfAppend(out, xs[i], url);
      if url(xs[i]) !in seen {
        seen := seen + {url(xs[i])};
        out := out + [xs[i]];
      }
      i := i + 1;
    }
    assert xs[..|xs|] == xs;
    UniqueIsFirstOccurrences(xs, url, |xs|);
    UniqueHasNoDuplicates(xs, url);
    UniqueCoversEveryUrl(xs, url);
  }
}

=== FILE: user_resources.dfy ===
/**
 * The user-gated resources of resources/user.py: the dashboard counters,
 * the saved-properties list and the favorite toggle. Favorites are keyed
 * by the caller's UserProfile id; inquiries and visits by the raw identity
 * id.
 */
module UserResources {
  import opened Records
  import opened Gate
  import opened Store
  import opened AgentEdits
  import opened AgentQueries

  /** `UserProfile.query.filter_by(user_id=identity).first()`. */
  function UserProfileOf(t: Tables, identity: nat): (p: Option<Row<UserProfileData>>)
    ensures p.Some? ==> p.value in t.userProfiles && p.value.data.userId == identity
    ensures p.Some? ==> exists k :: (0 <= k < |t.userProfiles| && t.userProfiles[k] == p.value &&
                                     forall j :: 0 <= j < k ==> t.userProfiles[j].data.userId != identity)
    ensures p.None? ==> forall u :: u in t.userProfiles ==> u.data.userId != identity
  {
    First(t.userProfiles, (u: Row<UserProfileData>) => u.data.userId == identity)
  }

  function FavoritesOf(favorites: seq<Row<FavoriteData>>, profileId: nat): (r: seq<Row<FavoriteData>>)
    ensures forall f :: f in r <==> f in favorites && f.data.userId == profileId
  {
    Filter(favorites, (f: Row<FavoriteData>) => f.data.userId == profileId)
  }

  function InquiriesFrom(inquiries: seq<Row<InquiryData>>, identity: nat): (r: seq<Row<InquiryData>>)
    ensures forall q :: q in r <==> q in inquiries && q.data.userId == identity
  {
    Filter(inquiries, (q: Row<InquiryData>) => q.data.userId == identity)
  }

  function VisitsBy(views: seq<Row<ViewData>>, identity: nat): (r: seq<Row<ViewData>>)
    ensures forall v :: v in r <==> v in views && v.data.userId == identity
  {
    Filter(views, (v: Row<ViewData>) => v.data.userId == identity)
  }

  datatype Stats = Stats(saved: nat, inquiries: nat, visits: nat)

  /** The caller's favorites, counted through the profile: none without one. */
  function SavedCount(t: Tables, identity: nat): nat
  {
    match UserProfileOf(t, identity)
    case None => 0
    case Some(profile) => |FavoritesOf(t.favorites, profile.id)|
  }

  /** UserStatsResource.get. */
  function UserStats(t: Tables, identity: nat): (r: Answer<Stats>)
    ensures r.Reply? && r.status == 200
    ensures UserProfileOf(t, identity).None? ==> r.value.saved == 0
    ensures UserProfileOf(t, identity).Some? ==>
      r.value.saved == |FavoritesOf(t.favorites, UserProfileOf(t, identity).value.id)|
    ensures r.value.inquiries == |InquiriesFrom(t.inquiries, identity)|
    ensures r.value.visits == |VisitsBy(t.views, identity)|
    ensures r.value.saved <= |t.favorites|
    ensures r.value.inquiries <= |t.inquiries| && r.value.visits <= |t.views|
  {
    Reply(200, Stats(SavedCount(t, identity), |InquiriesFrom(t.inquiries, identity)|, |VisitsBy(t.views, identity)|))
  }

  /**
   * Inquiries and visits are keyed on the raw identity: they do not change
   * when the caller's user profile is added or removed, while saved does.
   */
  lemma ActivityCountsIgnoreProfile(t: Tables, identity: nat, profiles: seq<Row<UserProfileData>>)
    ensures UserStats(t.(userProfiles := profiles), identity).value.inquiries == UserStats(t, identity).value.inquiries
    ensures UserStats(t.(userProfiles := profiles), identity).value.visits == UserStats(t, identity).value.visits
  {
  }

  // ---------------------------------------------------------------------
  // Saved properties

  /** The properties the favorites point at, in favorite order; a favorite whose property is gone is skipped. */
  function SavedList(properties: seq<Row<PropertyData>>, favorites: seq<Row<FavoriteData>>): (r: seq<Row<PropertyData>>)
    ensures |r| <= |favorites|
    ensures forall p :: p in r ==> p in properties && exists f :: f in favorites && f.data.propertyId == p.id
    decreases |favorites|
  {
    if favorites == [] then []
    else
      var init, last := favorites[..|favorites| - 1], favorites[|favorites| - 1];
      var kept := SavedList(properties, init);
      assert forall f :: f in init ==> f in favorites;
      match Get(properties, last.data.propertyId)
      case None => kept
      case Some(p) => kept + [p]
  }

  /** The favorites whose property `query.get` still finds. */
  function Resolving(properties: seq<Row<PropertyData>>, favorites: seq<Row<FavoriteData>>): (r: seq<Row<FavoriteData>>)
    ensures forall f :: f in r <==> f in favorites && Get(properties, f.data.propertyId).Some?
  {
    Filter(favorites, (f: Row<FavoriteData>) => Get(properties, f.data.propertyId).Some?)
  }

  /**
   * The list holds, in favorite order, one property per favorite that still
   * resolves: the i-th entry is what `query.get` finds for the i-th such favorite.
   */
  lemma {:induction false} SavedListFollowsFavorites(properties: seq<Row<PropertyData>>, favorites: seq<Row<FavoriteData>>)
    ensures var r := SavedList(properties, favorites);
      var kept := Resolving(properties, favorites);
      && |r| == |kept|
      && forall i :: 0 <= i < |r| ==> Get(properties, kept[i].data.propertyId) == Some(r[i])
    decreases |favorites|
  {
    if favorites != [] {
      var init := favorites[..|favorites| - 1];
      SavedListFollowsFavorites(properties, init);
    }
  }

  /** Every favorite of the caller whose property exists contributes that property. */
  lemma SavedListHoldsEveryResolvingFavorite(properties: seq<Row<PropertyData>>, favorites: seq<Row<FavoriteData>>)
    ensures forall f :: f in favorites && Get(properties, f.data.propertyId).Some? ==>
      Get(properties, f.data.propertyId).value in SavedList(properties, favorites)
  {
    SavedListFollowsFavorites(properties, favorites);
    var r, kept := SavedList(properties, favorites), Resolving(properties, favorites);
    forall f | f in favorites && Get(properties, f.data.propertyId).Some?
      ensures Get(properties, f.data.propertyId).value in r
    {
      var i :| 0 <= i < |kept| && kept[i] == f;
      assert Get(properties, f.data.propertyId) == Some(r[i]);
    }
  }

  /** When every favorite still resolves, the i-th favorite contributes the i-th entry. */
  lemma SavedListOfResolvedFavorites(properties: seq<Row<PropertyData>>, favorites: seq<Row<FavoriteData>>)
    requires forall f :: f in favorites ==> exists p :: p in properties && p.id == f.data.propertyId
    ensures |SavedList(properties, favorites)| == |favorites|
    ensures forall i :: 0 <= i < |favorites| ==>
      Get(properties, favorites[i].data.propertyId) == Some(SavedList(properties, favorites)[i])
  {
    forall f | f in favorites ensures Get(properties, f.data.propertyId).Some? {
      var p :| p in properties && p.id == f.data.propertyId;
    }
    FilterKeepsAll(favorites, (f: Row<FavoriteData>) => Get(properties, f.data.propertyId).Some?);
    SavedListFollowsFavorites(properties, favorites);
  }

  /** SavedPropertiesResource.get as a value. */
  function Saved(t: Tables, identity: nat): (r: Answer<seq<Row<PropertyData>>>)
    ensures r.Reply? && r.status == 200
    ensures UserProfileOf(t, identity).None? ==> r.value == []
    ensures |r.value| <= SavedCount(t, identity)
    ensures forall p :: p in r.value ==>
      p in t.properties &&
      exists f :: f in t.favorites && f.data.userId == UserProfileOf(t, identity).value.id && f.data.propertyId == p.id
    ensures forall f :: (f in t.favorites && UserProfileOf(t, identity).Some? &&
      f.data.userId == UserProfileOf(t, identity).value.id && Get(t.properties, f.data.propertyId).Some?) ==>
      Get(t.properties, f.data.propertyId).value in r.value
  {
    match UserProfileOf(t, identity)
    case None => Reply(200, [])
    case Some(profile) =>
      SavedListHoldsEveryResolvingFavorite(t.properties, FavoritesOf(t.favorites, profile.id));
      Reply(200, SavedList(t.properties, FavoritesOf(t.favorites, profile.id)))
  }

  /** The list is as long as the saved counter exactly when no favorite of the caller dangles. */
  lemma SavedMatchesCounterWhenNoneDangle(t: Tables, identity: nat)
    requires UserProfileOf(t, identity).Some?
    requires forall f :: f in t.favorites && f.data.userId == UserProfileOf(t, identity).value.id ==>
      exists p :: p in t.properties && p.id == f.data.propertyId
    ensures |Saved(t, identity).value| == UserStats(t, identity).value.saved
  {
    SavedListOfResolvedFavorites(t.properties, FavoritesOf(t.favorites, UserProfileOf(t, identity).value.id));
  }

  /** SavedPropertiesResource.get: one property lookup per favorite. */
  method SavedProperties(t: Tables, identity: nat) returns (r: Answer<seq<Row<PropertyData>>>)
    ensures r == Saved(t, identity)
  {
    var profile := UserProfileOf(t, identity);
    if profile.None? {
      return Reply(200, []);
    }
    var favorites := FavoritesOf(t.favorites, profile.value.id);
    var properties: seq<Row<PropertyData>> := [];
    for i := 0 to |favorites|
      invariant properties == SavedList(t.properties, favorites[..i])
    {
      assert favorites[..i + 1][..i] == favorites[..i];
      var p := Get(t.properties, favorites[i].data.propertyId);
      if p.Some? {
        properties := properties + [p.value];
      }
    }
    assert favorites[..|favorites|] == favorites;
    r := Reply(200, properties);
  }

  // ---------------------------------------------------------------------
  // Toggle

  /** The JSON body: anything but an object makes the handler raise. */
  datatype ToggleBody = NotAnObject | Object(propertyId: Option<int>)

  const NoUserProfile := "User profile not found"
  const PropertyIdRequired := "Property ID is required"

  /** The (profile, property) pairs favorited. */
  function Pairs(favorites: seq<Row<FavoriteData>>): (s: set<FavoriteData>)
    ensures forall f :: f in favorites ==> f.data in s
    ensures forall d :: d in s ==> exists f :: f in favorites && f.data == d
  {
    set f | f in favorites :: f.data
  }

  /** At most one favorite per (profile, property) pair. */
  predicate UniquePairs(favorites: seq<Row<FavoriteData>>)
  {
    forall i, j :: 0 <= i < j < |favorites| ==> favorites[i].data != favorites[j].data
  }

  /** The first favorite of this pair. */
  function FavoriteIndex(favorites: seq<Row<FavoriteData>>, key: FavoriteData): (k: Option<nat>)
    ensures k.Some? ==> k.value < |favorites| && favorites[k.value].data == key
    ensures k.None? ==> key !in Pairs(favorites)
  {
    FirstIndex(favorites, (f: Row<FavoriteData>) => f.data == key)
  }

  /** The property a valid body names: a truthy id of an existing property. */
  function ToggleTarget(t: Tables, body: ToggleBody): Option<nat>
    requires body.Object?
  {
    match body.propertyId
    case None => None
    case Some(id) => if id > 0 && Get(t.properties, id).Some? then Some(id) else None
  }

  /** ToggleFavoriteResource.post: the answer is the new is_favorited. */
  function ToggleSpec(t: Tables, identity: nat, body: ToggleBody): (o: Outcome<bool>)
    ensures UserProfileOf(t, identity).None? ==> o == Outcome(t, Completed(Refusal(404, NoUserProfile)))
    ensures o.run.Crashed? <==> UserProfileOf(t, identity).Some? && body.NotAnObject?
    ensures UserProfileOf(t, identity).Some? && body.Object? && (body.propertyId == None || body.propertyId == Some(0)) ==>
      o == Outcome(t, Completed(Refusal(400, PropertyIdRequired)))
    ensures (UserProfileOf(t, identity).Some? && body.Object? && body.propertyId.Some? && body.propertyId.value != 0 &&
             ToggleTarget(t, body).None?) ==> o == Outcome(t, Completed(Refusal(404, NoProperty)))
    ensures o.run.Completed? && o.run.answer.Reply? <==>
      UserProfileOf(t, identity).Some? && body.Object? && ToggleTarget(t, body).Some?
    ensures o.run.Completed? && o.run.answer.Reply? ==>
      && o.run.answer.status == 200
      && o.tables.(favorites := t.favorites) == t
      && var key := FavoriteData(UserProfileOf(t, identity).value.id, ToggleTarget(t, body).value);
         (o.run.answer.value <==> key !in Pairs(t.favorites))
    ensures !(o.run.Completed? && o.run.answer.Reply?) ==> o.tables == t
  {
    match UserProfileOf(t, identity)
    case None => Outcome(t, Completed(Refusal(404, NoUserProfile)))
    case Some(profile) =>
      match body
      case NotAnObject => Outcome(t, Crashed("'NoneType' object has no attribute 'get'"))
      case Object(id) =>
        if id.None? || id.value == 0 then Outcome(t, Completed(Refusal(400, PropertyIdRequired)))
        else match ToggleTarget(t, body)
          case None => Outcome(t, Completed(Refusal(404, NoProperty)))
          case Some(propertyId) =>
            var key := FavoriteData(profile.id, propertyId);
            match FavoriteIndex(t.favorites, key)
            case Some(k) =>
              Outcome(t.(favorites := t.favorites[..k] + t.favorites[k + 1..]), Completed(Reply(200, false)))
            case None =>
              Outcome(t.(favorites := t.favorites + [Row(NextId(t.favorites), key)]), Completed(Reply(200, true)))
  }

  /** ToggleFavoriteResource.post on the session. */
  method ToggleFavorite(db: Database, identity: nat, body: ToggleBody) returns (run: HandlerRun<bool>)
    modifies db
    ensures db.State() == ToggleSpec(old(db.State()), identity, body).tables
    ensures run == ToggleSpec(old(db.State()), identity, body).run
  {
    var profile := UserProfileOf(db.State(), identity);
    if profile.None? {
      return Completed(Refusal(404, NoUserProfile));
    }
    if body.NotAnObject? {
      return Crashed("'NoneType' object has no attribute 'get'");
    }
    if body.propertyId.None? || body.propertyId.value == 0 {
      return Completed(Refusal(400, PropertyIdRequired));
    }
    var target := ToggleTarget(db.State(), body);
    if target.None? {
      return Completed(Refusal(404, NoProperty));
    }
    var key := FavoriteData(profile.value.id, target.value);
    var existing := FavoriteIndex(db.favorites, key);
    if existing.Some? {
      var k := existing.value;
      db.favorites := db.favorites[..k] + db.favorites[k + 1..];
      run := Completed(Reply(200, false));
    } else {
      db.favorites := db.favorites + [Row(NextId(db.favorites), key)];
      run := Completed(Reply(200, true));
    }
  }

  lemma PairsWithout(favorites: seq<Row<FavoriteData>>, k: nat)
    requires k < |favorites| && UniquePairs(favorites)
    ensures Pairs(favorites[..k] + favorites[k + 1..]) == Pairs(favorites) - {favorites[k].data}
    ensures UniquePairs(favorites[..k] + favorites[k + 1..])
  {
    var rest := favorites[..k] + favorites[k + 1..];
    forall i | 0 <= i < |rest| ensures rest[i] == favorites[if i < k then i else i + 1] {
    }
    forall d | d in Pairs(favorites) - {favorites[k].data} ensures d in Pairs(rest) {
      var f :| f in favorites && f.data == d;
      var i :| 0 <= i < |favorites| && favorites[i] == f;
      assert rest[if i < k then i else i - 1] == f;
    }
  }

  lemma PairsWith(favorites: seq<Row<FavoriteData>>, r: Row<FavoriteData>)
    requires UniquePairs(favorites) && r.data !in Pairs(favorites)
    ensures Pairs(favorites + [r]) == Pairs(favorites) + {r.data}
    ensures UniquePairs(favorites + [r])
  {
    var all := favorites + [r];
    forall i | 0 <= i < |favorites| ensures all[i].data != r.data {
      assert favorites[i] in favorites;
    }
  }

  /**
   * A toggle flips exactly the caller's pair for the named property and
   * keeps at most one favorite per pair.
   */
  lemma ToggleFlipsOnePair(t: Tables, identity: nat, body: ToggleBody)
    requires UniquePairs(t.favorites)
    requires ToggleSpec(t, identity, body).run.Completed? && ToggleSpec(t, identity, body).run.answer.Reply?
    ensures var after := ToggleSpec(t, identity, body).tables.favorites;
      var key := FavoriteData(UserProfileOf(t, identity).value.id, ToggleTarget(t, body).value);
      && UniquePairs(after)
      && (key in Pairs(after) <==> key !in Pairs(t.favorites))
      && Pairs(after) - {key} == Pairs(t.favorites) - {key}
  {
    var key := FavoriteData(UserProfileOf(t, identity).value.id, ToggleTarget(t, body).value);
    match FavoriteIndex(t.favorites, key)
    case Some(k) =>
      PairsWithout(t.favorites, k);
    case None =>
      PairsWith(t.favorites, Row(NextId(t.favorites), key));
  }

  /** Toggling the same property twice restores the caller's favorites. */
  lemma ToggleTwiceRestores(t: Tables, identity: nat, body: ToggleBody)
    requires UniquePairs(t.favorites)
    requires ToggleSpec(t, identity, body).run.Completed? && ToggleSpec(t, identity, body).run.answer.Reply?
    ensures var once := ToggleSpec(t, identity, body).tables;
      && ToggleSpec(once, identity, body).run.Completed?
      && ToggleSpec(once, identity, body).run.answer.Reply?
      && ToggleSpec(once, identity, body).run.answer.value != ToggleSpec(t, identity, body).run.answer.value
      && Pairs(ToggleSpec(once, identity, body).tables.favorites) == Pairs(t.favorites)
  {
    var first := ToggleSpec(t, identity, body);
    var once := first.tables;
    ToggleFlipsOnePair(t, identity, body);
    assert once.userProfiles == t.userProfiles && once.properties == t.properties;
    assert UserProfileOf(once, identity) == UserProfileOf(t, identity);
    assert ToggleTarget(once, body) == ToggleTarget(t, body);
    var second := ToggleSpec(once, identity, body);
    assert second.run.Completed? && second.run.answer.Reply?;
    ToggleFlipsOnePair(once, identity, body);
    var key := FavoriteData(UserProfileOf(t, identity).value.id, ToggleTarget(t, body).value);
    SameBesidesOne(Pairs(second.tables.favorites), Pairs(t.favorites), key);
  }

  /** Two sets that agree on one element and on everything else are equal. */
  lemma SameBesidesOne<T>(a: set<T>, b: set<T>, x: T)
    requires a - {x} == b - {x} && (x in a <==> x in b)
    ensures a == b
  {
    assert forall y :: y in a <==> y in b by {
      forall y ensures y in a <==> y in b {
        if y != x {
          assert y in a <==> y in a - {x};
          assert y in b <==> y in b - {x};
        }
      }
    }
  }

  /** A toggle moves the caller's saved counter by exactly one, and no other counter. */
  lemma ToggleMovesSavedCountByOne(t: Tables, identity: nat, body: ToggleBody)
    requires ToggleSpec(t, identity, body).run.Completed? && ToggleSpec(t, identity, body).run.answer.Reply?
    ensures var before := UserStats(t, identity).value;
      var after := UserStats(ToggleSpec(t, identity, body).tables, identity).value;
      && after.saved == (if ToggleSpec(t, identity, body).run.answer.value then before.saved + 1 else before.saved - 1)
      && after.inquiries == before.inquiries && after.visits == before.visits
  {
    var o := ToggleSpec(t, identity, body);
    var profile := UserProfileOf(t, identity).value;
    var key := FavoriteData(profile.id, ToggleTarget(t, body).value);
    assert UserProfileOf(o.tables, identity) == Some(profile);
    match FavoriteIndex(t.favorites, key)
    case Some(k) =>
      FavoritesOfWithout(t.favorites, k, profile.id);
    case None =>
      FavoritesOfWith(t.favorites, Row(NextId(t.favorites), key), profile.id);
  }

  /** Deleting one of a profile's favorites takes one off its count. */
  lemma FavoritesOfWithout(fs: seq<Row<FavoriteData>>, k: nat, profileId: nat)
    requires k < |fs| && fs[k].data.userId == profileId
    ensures |FavoritesOf(fs[..k] + fs[k + 1..], profileId)| + 1 == |FavoritesOf(fs, profileId)|
  {
    var keep := (f: Row<FavoriteData>) => f.data.userId == profileId;
    assert fs == fs[..k] + [fs[k]] + fs[k + 1..];
    FilterOfAppend(fs[..k] + [fs[k]], fs[k + 1..], keep);
    FilterOfAppend(fs[..k], [fs[k]], keep);
    FilterOfAppend(fs[..k], fs[k + 1..], keep);
  }

  /** Adding a favorite for a profile adds one to its count. */
  lemma FavoritesOfWith(fs: seq<Row<FavoriteData>>, r: Row<FavoriteData>, profileId: nat)
    requires r.data.userId == profileId
    ensures |FavoritesOf(fs + [r], profileId)| == |FavoritesOf(fs, profileId)| + 1
  {
    FilterOfAppend(fs, [r], (f: Row<FavoriteData>) => f.data.userId == profileId);
  }
}
